=== FILE: README.md ===
# MyKlinik health assistant: route-handler model

This project models the request handling of a clinic chatbot and appointment
app. The app is a set of Next.js route handlers in front of a hosted
"gen_tables" service, plus an admin dashboard:

- `POST /api/chat` classifies a patient's message (symptom category, language,
  urgency). It then asks the chat table for an answer, prefixed with an
  instruction to reply in the detected language.
- `POST /api/appointment` adds a booking row and returns the generated
  confirmation in English or Malay.
- `POST /api/admin/login` looks a username and password up in the admins list.
- `GET /api/admin/appointments` lists the rows. It flattens cell-wrapped values
  and falls back across inconsistently named keys.
- `PATCH /api/admin/appointments` updates a row's status and/or doctor notes.
- The admin dashboard computes its stat cards, a default status, a time
  fallback and the bodies of the PATCH requests it sends.

Every handler is a pure function here:

- `Chat.Post`, `Booking.Book` and `AdminAppointments.Patch` take the parsed
  request body, plus the environment and the replies of their outbound calls
  as parameters. They return an `Exchange`, which holds the JSON bodies the
  handler posted upstream, in order, and the status and body it answered with.
- `AdminAppointments.List` (the GET handler) reads no request body and posts
  nothing. It takes the environment and the replies of its two GET calls, and
  returns a bare `Response`.
- `AdminLogin.Login` makes no outbound call. It takes the parsed request body,
  the admin list and the session token as parameters, and returns a bare
  `Response`.

JavaScript semantics are written out in module `Js`:

- Truthiness (`!x`, `||`) is kept separate from nullish coalescing (`??`).
- `.k` on null throws. `?.k` and `?.[i]` chains give undefined instead.
- `===` compares by value, but never equates two separately parsed objects.
- Template literals convert values to text. A parsed object with its own
  `toString` member makes that conversion throw, also inside an array.

A thrown exception is a `Completion.Throw`. Each handler maps it to its own
catch-path reply.

Modules follow the source files:

- `Js`, `Http` and `GenTables`: shared vocabulary.
- `AdminAppointments`: `src/app/api/admin/appointments/route.ts`.
- `Booking`: `src/app/api/appointment/route.ts`.
- `Chat`: `src/app/api/chat/route.ts`.
- `AdminLogin`: `src/app/api/admin/login/route.ts`.
- `Dashboard`: `src/app/admin/dashboard/page.tsx`.
- `Flows`: properties that span two handlers.

In the code, only the admin list and update handlers pass an upstream
failure status through to the browser. The booking handler's add-row call
and the chat handler's chat-table call throw on a reply that is not ok, so
those failures answer 500 from the catch path. A classifier reply that is
not ok is only logged: the chat handler goes on with "unknown" for all three
fields.

Two behaviours of the code that the lemmas make visible:

- The dashboard shows a row without a status as "Booked" (`||`). The Booked
  stat card compares with `===`, so it does not count that row. The booking
  handler writes no status. So if the table service stores the posted row
  without adding a `current_state` of its own, a freshly booked row is such
  a row.
- In the listing, `?? []` never applies. Reading `data.rows` already throws on
  a null body, and `data.rows || data.items || data` is never null or
  undefined.

## Model

| member | source | states |
|---|---|---|
| Js.OrDiffersFromCoalesce | src/app/api/admin/appointments/route.ts:60 | `a \|\| b` and `a ?? b` differ exactly when `a` is falsy but not null/undefined (false, 0, "") and `b` is a different value |
| Js.EmptyStringOrCoalesce | src/app/api/admin/appointments/route.ts:73 | an empty string is kept by `??` and skipped by `\|\|` |
| Js.FollowFromNullish | src/app/api/chat/route.ts:59-61 | once a link of an optional chain is null/undefined the whole chain is undefined |
| Js.StrictEqualsIsValueEquality | src/app/api/admin/login/route.ts:24 | `===` holds exactly for equal values that are neither arrays nor objects, so a number never equals a string of the same digits |
| Js.IncludesAtOffset | src/app/api/admin/appointments/route.ts:112 | `s.includes(t)` holds iff `t` occurs at some offset of `s` (the placeholder-key test) |
| Js.Text | src/app/api/chat/route.ts:85 | `${v}` gives a string's own text; undefined, null and booleans give `undefined`, `null`, `true`/`false`; an integer gives its decimal numeral; an object without its own `toString` member gives `[object Object]` and one with it throws; an array throws exactly when an element throws and otherwise is its elements' texts joined by commas, null and undefined elements as empty strings |
| Js.NatToDecimalReadsBack | src/app/api/chat/route.ts:85 | the numeral of a natural number is a non-empty digit string without a leading zero that reads back, under an independent digit-by-digit reading, as the number |
| Js.IntToDecimalReadsBack | src/app/api/chat/route.ts:85 | the text of an integer starts with `-` exactly when it is negative and reads back as the integer |
| Http.KeyConfigured | src/app/api/admin/appointments/route.ts:12 | the credential guard passes iff the key is non-empty and `your_` occurs at no offset of it |
| GenTables.Content | src/app/api/appointment/route.ts:57 | reading generated content throws exactly when the reply body is null (the plain `data.rows` read); otherwise it is the optional chain's value |
| GenTables.ContentOfGeneratedRow | src/app/api/appointment/route.ts:57-58 | reading `rows[0].columns.<c>.choices[0].message.content` of a one-row generated reply gives back the column's text |
| GenTables.ContentOfMissingColumn | src/app/api/chat/route.ts:59-61 | a column the reply lacks reads as undefined, not as a throw |
| AdminAppointments.GetValUnwrapsCell | src/app/api/admin/appointments/route.ts:64 | `getVal` undoes wrapping a value as `{ value: x }` |
| AdminAppointments.GetValOneLevel | src/app/api/admin/appointments/route.ts:64 | `getVal` returns every non-cell value unchanged and unwraps a doubly wrapped value by one level only |
| AdminAppointments.GetVal | src/app/api/admin/appointments/route.ts:64 | a cell (an object with a `value` member) yields its `value`; every other value is returned unchanged |
| AdminAppointments.Flatten | src/app/api/admin/appointments/route.ts:65-77 | each column is `getVal` of the first of its source keys that is not null/undefined, against the independent `Sources`/`FirstPresent` reading |
| AdminAppointments.RawRows | src/app/api/admin/appointments/route.ts:59-60 | reading the rows throws exactly on a null body, and the rows read are never null or undefined |
| AdminAppointments.NormaliseRow | src/app/api/admin/appointments/route.ts:63-77 | a flattened row has exactly the eleven dashboard columns |
| AdminAppointments.NormaliseRows | src/app/api/admin/appointments/route.ts:63-78 | mapping the rows succeeds iff no row is null; the result has the same length and order, each row flattened |
| AdminAppointments.ListBody | src/app/api/admin/appointments/route.ts:59-80 | the listing succeeds iff the rows (`rows`, else `items`, else the body) are an array with no null row; `appointments` then has one flattened row per raw row, in order |
| AdminAppointments.List | src/app/api/admin/appointments/route.ts:9-88 | a missing or placeholder key gives 500; the alternate call's reply is used exactly when the first is not ok; a not-ok final reply passes its status through with a body whose only member `error` is the reply's `message` when truthy, else `Failed to fetch appointments`; an ok final reply is answered with `ListBody` of its body (200) or the catch 500; a 200 body is `{ appointments: [...] }`, every entry with the eleven columns |
| AdminAppointments.RawRowsNeverDefault | src/app/api/admin/appointments/route.ts:60 | the `?? []` default is never taken: the raw rows are `data.rows \|\| data.items \|\| data` |
| AdminAppointments.ListFlattensEveryRow | src/app/api/admin/appointments/route.ts:59-80 | an ok reply `{ rows }` with no null row is answered 200 with each row flattened, same length and order |
| AdminAppointments.NormaliseReadsSources | src/app/api/admin/appointments/route.ts:65-77 | every column of a flattened row equals `getVal` of the first of its source keys that is not null/undefined; `current_state` falls back to `appointment_status`, `confirmation_message` to `confirmation_message_en`, `created_at` reads `updated_at`, then `Updated at`, then `created_at` |
| AdminAppointments.FirstPresentUnrolled | src/app/api/admin/appointments/route.ts:73-76 | taking the first present of one, two or three keys is the corresponding `??` chain |
| AdminAppointments.NormaliseFallbacks | src/app/api/admin/appointments/route.ts:73-76 | each fallback is taken only when the earlier key is null/undefined, so an empty-string `current_state` is kept |
| AdminAppointments.NormaliseIdempotent | src/app/api/admin/appointments/route.ts:63-78 | a flattened row with no cell and no null value flattens to itself |
| AdminAppointments.FlattenOfFlatRow | src/app/api/admin/appointments/route.ts:65-77 | one column of an already flattened row reads back unchanged |
| AdminAppointments.UpdateData | src/app/api/admin/appointments/route.ts:132-135 | the update writes `current_state` iff the status is truthy and `doctor_notes` iff the notes are a string, each with the given value, and no other column |
| AdminAppointments.PatchError | src/app/api/admin/appointments/route.ts:95-109 | a PATCH body passes iff its row id is truthy, it writes at least one column, and any status it writes is one of the four; a refusal carries one of the two 400 messages |
| AdminAppointments.UpdateRequest | src/app/api/admin/appointments/route.ts:128-136 | the posted update names the table and the row id, writes exactly `UpdateData`, and leaves `project_id` out iff no project is configured |
| AdminAppointments.PatchReply | src/app/api/admin/appointments/route.ts:139-153 | a not-ok update reply passes its status through with "Failed to update appointment status"; the answer is 200 iff the reply is ok and parses, and then it is `{ success: true, message, data }` with the reply's body as `data` |
| AdminAppointments.Patch | src/app/api/admin/appointments/route.ts:91-161 | a falsy `rowId`, or a falsy status with non-string notes, gives 400 "Row ID and either status or doctorNotes is required"; a truthy status outside the four gives 400 "Invalid status..."; a valid body with a bad key gives 500; exactly one update is posted iff body and key are valid, and the answer is then the update reply read by `PatchReply` |
| AdminAppointments.PatchValidationPrecedesKeyCheck | src/app/api/admin/appointments/route.ts:95-117 | an invalid body gets 400 whatever the key (even none or a `your_` placeholder) and whatever upstream would say; nothing is posted |
| AdminAppointments.PatchNotesMustBeString | src/app/api/admin/appointments/route.ts:95 | with no status, any string note (even "") is accepted and written alone; a non-string note is refused with 400 |
| AdminAppointments.PatchRejectsExactly | src/app/api/admin/appointments/route.ts:95-109 | a body is refused with 400 without posting iff one of the three validation rules fails |
| Booking.MissingFieldIff | src/app/api/appointment/route.ts:12 | the five-way `\|\|` check holds iff some required field is falsy |
| Booking.BookingRow | src/app/api/appointment/route.ts:37-43 | the posted row maps the five camelCase fields one-to-one onto the five snake_case columns and adds nothing |
| Booking.Choose | src/app/api/appointment/route.ts:69 | the Malay text is chosen iff the language is the string "ms", the English one otherwise |
| Booking.BookReply | src/app/api/appointment/route.ts:48-76 | a not-ok, unreadable or null reply gives the catch 500; for an ok body the answer is 200 iff both generated contents are truthy, else 500 "Failed to generate confirmation"; a 200 body has exactly `success: true`, `confirmation`, `confirmationEn` and `confirmationMs`, the last two the generated contents, and `confirmation` is the Malay one exactly for `language === "ms"` |
| Booking.Book | src/app/api/appointment/route.ts:7-84 | a falsy required field gives 400 before the key check; `language` is not required; the row is posted iff fields and key are valid; 200 only after posting |
| Booking.BookValidationPrecedesKeyCheck | src/app/api/appointment/route.ts:12-25 | a missing field gives the same 400 whatever the key and the upstream reply |
| Booking.BookAnswersInRequestedLanguage | src/app/api/appointment/route.ts:57-76 | with both confirmations generated, the booking answers 200, returns both, and picks Malay exactly for `language` "ms" |
| Booking.BookPostsThenReplies | src/app/api/appointment/route.ts:27-76 | a valid booking with a configured key posts exactly its row and answers with what the add-row reply yields for the requested language |
| Booking.ConfirmationsOf | src/app/api/appointment/route.ts:57-76 | any reply body whose two confirmation contents are non-empty strings is answered 200 with both, Malay chosen exactly for `language` "ms" |
| Booking.ConfirmationsOfGeneratedRow | src/app/api/appointment/route.ts:57-76 | a generated row holding both confirmations is answered 200 with the generated texts |
| Booking.BookFailsWithoutBothConfirmations | src/app/api/appointment/route.ts:57-66 | if either confirmation is missing from the reply the answer is 500 "Failed to generate confirmation" |
| Booking.BookFailsOnFalsyConfirmation | src/app/api/appointment/route.ts:57-66 | for any ok reply whose English or Malay content is falsy (missing, "", 0, false, null), the row is posted and the answer is 500 "Failed to generate confirmation" |
| Chat.Classify | src/app/api/chat/route.ts:50-66 | a not-ok classifier reply leaves all three fields "unknown"; for an ok, non-null body each field is its generated column's content when truthy and "unknown" otherwise; every field is truthy; it throws only on a failed fetch, an unparsable body or a null body |
| Chat.ClassifyGeneratedRow | src/app/api/chat/route.ts:58-62 | each field is the generated column's text when non-empty, and "unknown" when the column is missing or empty |
| Chat.ReadGenerated | src/app/api/chat/route.ts:59 | `content \|\| "unknown"` over one generated column |
| Chat.LanguageInstruction | src/app/api/chat/route.ts:69-73 | the English-only instruction iff the language is exactly "en", the Malay-only one iff exactly "ms", and "" otherwise |
| Chat.Prompt | src/app/api/chat/route.ts:85 | the prompt throws exactly when the message's text conversion throws; otherwise it is the instruction, one space, then the message text, and splits back into them |
| Chat.PromptOfStringMessage | src/app/api/chat/route.ts:69-85 | for a string message the prompt never throws and is `instruction + " " + message`, and `" " + message` when no language is detected |
| Chat.Respond | src/app/api/chat/route.ts:90-116 | a not-ok, unreadable or null reply gives the catch 500; for an ok body the answer is 200 iff the `AI` content is truthy, else 500 "Failed to extract AI response"; a 200 body has exactly `response`, which is that content, and `metadata`, which copies category, language and urgency unchanged |
| Chat.Post | src/app/api/chat/route.ts:11-123 | a falsy message gives 400 before the key check; the classifier request is posted iff message and key are valid; a second request, carrying the prompt built from the detected language, is posted iff classifying and building the prompt both succeed, and the answer is then the chat reply read by `Respond` with that classification; after one request the answer is the catch 500 |
| Chat.UnclassifiedChat | src/app/api/chat/route.ts:50-85 | when the classifier reply is not ok, a message with text is sent as `" " + message` and answered by `Respond` with "unknown" for all three fields; a message whose text conversion throws stops after the classifier call with the catch 500 |
| Chat.StringMessageReachesChat | src/app/api/chat/route.ts:69-116 | a string message that was classified always reaches the chat table, and the answer is the chat reply read with that classification |
| Chat.ToStringMessageFailsAfterClassifying | src/app/api/chat/route.ts:85 | a message object with its own `toString` member makes the prompt throw after the classifier call: one request is sent and the catch 500 is answered |
| AdminLogin.FindFrom | src/app/api/admin/login/route.ts:23-25 | the result is the first admin whose username and password are both `===` the input, or none when no admin matches |
| AdminLogin.Matches | src/app/api/admin/login/route.ts:24 | an admin matches iff its username and password equal the given ones in value and type, and neither is an array or object |
| AdminLogin.Login | src/app/api/admin/login/route.ts:8-50 | a falsy username or password gives 400; the answer is 200 iff some admin matches both strictly, else 401; a 200 body has exactly `success: true`, the token, and the first match's `name`, `role` and `id` |
| AdminLogin.LoginRejectsBlankWithoutLookup | src/app/api/admin/login/route.ts:10-20 | a falsy username or password gives the same 400 whatever the admin list and token |
| AdminLogin.LoginOutcomes | src/app/api/admin/login/route.ts:23-32 | with both credentials present the answer is 200 or 401 |
| AdminLogin.FirstMatchWins | src/app/api/admin/login/route.ts:23-25 | when two admins match, the earlier one is chosen |
| Dashboard.CountState | src/app/admin/dashboard/page.tsx:228-240 | a status count never exceeds the number of rows |
| Dashboard.ComputeStats | src/app/admin/dashboard/page.tsx:220-243 | total is the number of rows; Booked, In Progress and Completed count exact `===` matches; the three together are at most the total |
| Dashboard.StatusCountsWithinTotal | src/app/admin/dashboard/page.tsx:228-240 | the three status counts add up to at most the number of rows |
| Dashboard.DisplayStatus | src/app/admin/dashboard/page.tsx:360 | the shown and selected status is always truthy: "Booked" when `current_state` is falsy, else `current_state` |
| Dashboard.DisplayTime | src/app/admin/dashboard/page.tsx:379 | the shown time is `preferred_time` if truthy, else `prefered_time`; it is truthy iff either is |
| Dashboard.OptionsAreTheValidStatuses | src/app/admin/dashboard/page.tsx:414-417 | the selector's options are exactly the four statuses the PATCH handler accepts, one per `AppointmentStatus` |
| Dashboard.StatusUpdateWritesOnlyStatus | src/app/admin/dashboard/page.tsx:139 | a status change from a row with an id passes the PATCH checks and writes `current_state` alone |
| Dashboard.NotesUpdateNeverWritesStatus | src/app/admin/dashboard/page.tsx:161 | a notes edit never writes `current_state`; from a row with an id it writes exactly the notes, even empty ones |
| Dashboard.UnsetStatusShownButNotCounted | src/app/admin/dashboard/page.tsx:360 | a row with no status is shown as "Booked" but not counted by the Booked card |
| Flows.BookedRowListsBack | src/app/api/appointment/route.ts:37-43 | taking the posted row as stored verbatim, a booked row with string fields is listed with the same five values under the snake_case columns; it has no status, is shown as "Booked" and is left out of the Booked card |
| Flows.BookedRowHasNoStatus | src/app/api/admin/appointments/route.ts:73 | taking the posted row as stored verbatim, a booked row has neither `current_state` nor `appointment_status`, so it is listed with no status |
| Flows.BookedColumnListsBack | src/app/api/admin/appointments/route.ts:67-72 | one booked column is read back unchanged by the listing |
| Flows.StoredStatusReachesDashboard | src/app/api/admin/appointments/route.ts:73 | a stored status, plain or cell-wrapped, is listed, shown and counted as that status |
| Flows.StoredTimeReachesDashboard | src/app/admin/dashboard/page.tsx:379 | a time stored under either spelling, plain or cell-wrapped, is listed and shown; a non-empty `preferred_time` wins over `prefered_time` |

## Left out

- Outbound calls are not performed. Only the JSON bodies the handlers post are modelled. URLs, headers, query parameters, the base-URL setting and the alternate path's `limit`/`project_id` parameters are not. Replies are parameters: a network failure, or a status plus a body that parses or not.
- The table service's behaviour is out of scope: what it stores, generates or returns. Lemmas about read-back start from a stored row.
- Environment variables are parameters. An unset variable is the empty string, because every read is `!x`, `x || default` or a truthiness test, and those treat unset and empty alike.
- A request body that is not valid JSON is left out. `await request.json()` would throw and reach the catch path. The handlers take the parsed body.
- Numbers are integers only. NaN, fractions and their text form are not modelled.
- Js.Text: integers of 1e21 and above are written out in full, where JavaScript prints them in exponent form (`1e+21`).
- Chat.Prompt: inherits that gap. A message number of 1e21 or more is sent in full digits, not in exponent form.
- Js.StrictEqualsIsValueEquality: numbers are exact integers. `JSON.parse` rounds integers beyond 2^53 to the nearest double, so two different large numbers can be `===` in the source (src/app/api/admin/login/route.ts:24) but not here.
- Built-in members of strings and arrays (`length` and the like) are not modelled. None of the keys the handlers read names one.
- `undefined` members stay in the model's bodies. `JSON.stringify` drops them on the wire. Reading such a member gives undefined either way.
- Logging (`console.*`, `classifyResponse.text()` on a failed classification) is left out.
- The credentials file is not modelled. Its read and parse become the `admins` parameter, and entries that are not objects are left out. The random token is the `token` parameter.
- React state, rendering, localisation tables, `localStorage`, the dashboard's own fetches and alerts, and the `as AppointmentStatus` cast with its icon lookup are left out.
- The chat page and the appointment form page are UI only. The date minimum depends on `Date` and the time zone.
- `src/middleware.ts` is left out: both branches return `NextResponse.next()`.
- `src/app/api/admin/diagnostics/route.ts` is left out: it passes a listing call straight through.
- Flows.BookedRowListsBack: starts from the posted row as if the table service stored it verbatim. An `ID`, timestamps or a default `current_state` that the service may add are not modelled.
- Flows.BookedRowHasNoStatus: same assumption. A `current_state` default added by the table service would be listed instead.
- Booking.CatchReply: the catch-path body leaves out `details`, because `error.message` is engine-specific text.
- Chat.CatchReply: the catch-path body leaves out `details`, for the same reason.
- Booking.Book: the catch path is modelled as `{ error }` only, without `details`.
- Chat.Post: the catch path is modelled as `{ error }` only, without `details`.

=== FILE: admin_appointments.dfy ===
/** GET and PATCH /api/admin/appointments: listing the appointment rows of
    the table service flattened for the dashboard, and updating one row's
    status and/or doctor notes. */
module AdminAppointments {
  import opened Js
  import opened Http

  /** The statuses the `current_state` column may be set to. */
  const ValidStatuses: seq<string> := ["Booked", "In Progress", "Completed", "Cancelled"]

  const InternalErrorMessage := "Internal server error"

  /** `validStatuses.includes(status)`: only one of the four exact strings. */
  predicate IsValidStatus(status: Json) {
    status.Str? && status.s in ValidStatuses
  }

  // ---------------------------------------------------------------- GET

  /** A flattened appointment row, as the dashboard receives it. */
  type Row = map<string, Json>

  /** The columns of a flattened row. */
  const RowColumns: set<string> := {
    "ID", "patient_name", "phone_number", "preferred_date", "preferred_time",
    "prefered_time", "reason", "current_state", "doctor_notes",
    "confirmation_message", "created_at"
  }

  /** A cell as the table service sometimes wraps it: an object with a
      `value` member. */
  predicate IsCell(v: Json) {
    v.Obj? && "value" in v.members
  }

  /** Wrapping a value in a cell. */
  function Cell(x: Json): Json {
    Obj(map["value" := x])
  }

  /** `getVal`: the `value` member of a truthy object that has one, else the
      value itself. Arrays are objects too, but a parsed array never has a
      `value` member. */
  function GetVal(v: Json): (r: Json)
    ensures IsCell(v) ==> r == v.members["value"]
    ensures !IsCell(v) ==> r == v
  {
    if Truthy(v) && v.Obj? && "value" in v.members then v.members["value"] else v
  }

  /** The reference reading of a flattened column: each column takes the
      first of its source keys whose member is not null or undefined (the
      last key when none is), and then unwraps it with `getVal`. */
  function Sources(column: string): seq<string> {
    if column == "current_state" then ["current_state", "appointment_status"]
    else if column == "confirmation_message" then ["confirmation_message", "confirmation_message_en"]
    else if column == "created_at" then ["updated_at", "Updated at", "created_at"]
    else [column]
  }

  function FirstPresent(row: Json, keys: seq<string>): Json
    requires keys != []
    decreases |keys|
  {
    if |keys| == 1 || !Nullish(Member(row, keys[0])) then Member(row, keys[0])
    else FirstPresent(row, keys[1..])
  }

  /** The value of one column of a flattened row. `row.k ?? row["k"]` reads
      the same member twice, so a plain column is just `row.k`; three
      columns fall back to older keys with `??`. */
  function Flatten(row: Json, column: string): (r: Json)
    ensures r == GetVal(FirstPresent(row, Sources(column)))
  {
    FirstPresentUnrolled(row, Sources(column));
    var m := k => Member(row, k);
    if column == "current_state" then
      GetVal(Coalesce(Coalesce(Coalesce(m("current_state"), m("current_state")),
        m("appointment_status")), m("appointment_status")))
    else if column == "confirmation_message" then
      GetVal(Coalesce(Coalesce(Coalesce(m("confirmation_message"), m("confirmation_message")),
        m("confirmation_message_en")), m("confirmation_message_en")))
    else if column == "created_at" then
      GetVal(Coalesce(Coalesce(Coalesce(m("updated_at"), m("Updated at")),
        m("created_at")), m("created_at")))
    else if column == "ID" then
      GetVal(m("ID"))
    else
      GetVal(Coalesce(m(column), m(column)))
  }

  /** Flattening one listed row: the callback of `rawRows.map`, for a row
      that is not null (reading `row.ID` of null throws first). */
  function NormaliseRow(row: Json): (r: Row)
    requires !Nullish(row)
    ensures r.Keys == RowColumns
  {
    map c | c in RowColumns :: Flatten(row, c)
  }

  /** `rawRows.map(...)`: flattening throws on the first null row (reading
      `row.ID` of null); otherwise every row is flattened in order. */
  function NormaliseRows(rows: seq<Json>): (r: Completion<seq<Row>>)
    ensures r.Normal? <==> forall i | 0 <= i < |rows| :: !Nullish(rows[i])
    ensures r.Normal? ==> |r.value| == |rows|
    ensures r.Normal? ==> forall i | 0 <= i < |rows| ::
      !Nullish(rows[i]) && r.value[i] == NormaliseRow(rows[i])
    decreases |rows|
  {
    if rows == [] then Normal([])
    else if Nullish(rows[0]) then Throw
    else
      match NormaliseRows(rows[1..])
      case Throw => Throw
      case Normal(rest) => Normal([NormaliseRow(rows[0])] + rest)
  }

  /** `(data.rows || data.items || data) ?? []`; reading `data.rows` throws
      when the reply body is JSON `null`. */
  function RawRows(data: Json): (r: Completion<Json>)
    ensures r.Throw? <==> Nullish(data)
    ensures r.Normal? ==> !Nullish(r.value)
  {
    if Nullish(data) then Throw
    else Normal(Coalesce(Or(Or(Member(data, "rows"), Member(data, "items")), data), Arr([])))
  }

  /** The listing body built from a parsed reply: `{ appointments }` when the
      raw rows are an array without null entries; anything else makes
      `rawRows.map` or a row read throw. */
  function ListBody(data: Json): (r: Completion<Json>)
    ensures r.Normal? <==>
      (RawRows(data).Normal? && RawRows(data).value.Arr? &&
       forall i | 0 <= i < |RawRows(data).value.items| :: !Nullish(RawRows(data).value.items[i]))
    ensures r.Normal? ==>
      var raw := RawRows(data).value.items;
      && r.value.Obj?
      && r.value.members.Keys == {"appointments"}
      && r.value.members["appointments"].Arr?
      && |r.value.members["appointments"].items| == |raw|
      && forall i | 0 <= i < |raw| ::
           !Nullish(raw[i]) && r.value.members["appointments"].items[i] == Obj(NormaliseRow(raw[i]))
  {
    match RawRows(data)
    case Throw => Throw
    case Normal(raw) =>
      if !raw.Arr? then Throw
      else
        match NormaliseRows(raw.items)
        case Throw => Throw
        case Normal(rows) =>
          Normal(Obj(map["appointments" := Arr(seq(|rows|, i requires 0 <= i < |rows| => Obj(rows[i])))]))
  }

  /** GET: the credential guard, then the list call, retried once on the
      alternate path when the first reply is not ok. `primary` and
      `alternate` are the replies of the two calls; `alternate` is only
      consulted when `primary` is not ok. */
  function List(env: Env, primary: Reply, alternate: Reply): (r: Response)
    ensures !KeyConfigured(env.apiKey) ==> r == ErrorReply(500, KeyMissingMessage)
    ensures r.status == 200 ==>
      && r.body.Obj?
      && "appointments" in r.body.members
      && r.body.members["appointments"].Arr?
      && forall i | 0 <= i < |r.body.members["appointments"].items| ::
           var row := r.body.members["appointments"].items[i];
           row.Obj? && row.members.Keys == RowColumns
    ensures KeyConfigured(env.apiKey) && primary.NetworkFailure? ==> r == ErrorReply(500, InternalErrorMessage)
    ensures KeyConfigured(env.apiKey) && primary.Reply? ==>
      var final := if Ok(primary) then primary else alternate;
      && (final.NetworkFailure? ==> r == ErrorReply(500, InternalErrorMessage))
      && (final.Reply? && !Ok(final) ==>
            var errorData := match final.body case Normal(j) => j case Throw => Obj(map[]);
            && r.status == final.status && r.body.Obj? && r.body.members.Keys == {"error"}
            && r.body.members["error"] == Or(Member(errorData, "message"), Str("Failed to fetch appointments")))
      && (final.Reply? && Ok(final) && final.body.Throw? ==> r == ErrorReply(500, InternalErrorMessage))
      && (final.Reply? && Ok(final) && final.body.Normal? ==>
            r == match ListBody(final.body.value)
                 case Normal(body) => Response(200, body)
                 case Throw => ErrorReply(500, InternalErrorMessage))
  {
    if !KeyConfigured(env.apiKey) then ErrorReply(500, KeyMissingMessage)
    else if primary.NetworkFailure? then ErrorReply(500, InternalErrorMessage)
    else
      var final := if Ok(primary) then primary else alternate;
      if final.NetworkFailure? then ErrorReply(500, InternalErrorMessage)
      else if !Ok(final) then
        var errorData := match final.body case Normal(j) => j case Throw => Obj(map[]);
        Response(final.status, Obj(map["error" :=
          Or(Member(errorData, "message"), Str("Failed to fetch appointments"))]))
      else
        match final.body
        case Throw => ErrorReply(500, InternalErrorMessage)
        case Normal(data) =>
          match ListBody(data)
          case Throw => ErrorReply(500, InternalErrorMessage)
          case Normal(body) => Response(200, body)
  }

  // -------------------------------------------------------------- PATCH

  /** The three members the PATCH handler destructures from its body. */
  datatype PatchFields = PatchFields(rowId: Json, status: Json, doctorNotes: Json)

  function PatchFieldsOf(req: Json): PatchFields {
    PatchFields(Member(req, "rowId"), Member(req, "status"), Member(req, "doctorNotes"))
  }

  const RequiredMessage := "Row ID and either status or doctorNotes is required"

  const InvalidStatusMessage := "Invalid status. Must be one of: " + Join(ValidStatuses, ", ")

  /** The 400 message a PATCH body earns, checked in source order, if any. */
  function PatchError(f: PatchFields): (e: Option<string>)
    ensures e.None? <==>
      && Truthy(f.rowId)
      && UpdateData(f) != map[]
      && ("current_state" in UpdateData(f) ==> IsValidStatus(UpdateData(f)["current_state"]))
    ensures e.Some? ==> e.value in {RequiredMessage, InvalidStatusMessage}
  {
    if !Truthy(f.rowId) || (!Truthy(f.status) && !IsString(f.doctorNotes)) then Some(RequiredMessage)
    else if Truthy(f.status) && !IsValidStatus(f.status) then Some(InvalidStatusMessage)
    else None
  }

  /** The `data` member of the row update: `current_state` exactly when the
      status is truthy, `doctor_notes` exactly when the notes are a string
      (the empty string included), and no other column. */
  function UpdateData(f: PatchFields): (data: map<string, Json>)
    ensures "current_state" in data <==> Truthy(f.status)
    ensures "doctor_notes" in data <==> IsString(f.doctorNotes)
    ensures data.Keys <= {"current_state", "doctor_notes"}
    ensures "current_state" in data ==> data["current_state"] == f.status
    ensures "doctor_notes" in data ==> data["doctor_notes"] == f.doctorNotes
  {
    (if Truthy(f.status) then map["current_state" := f.status] else map[])
    + (if IsString(f.doctorNotes) then map["doctor_notes" := f.doctorNotes] else map[])
  }

  /** The body posted to the row-update endpoint. `project_id` is undefined,
      and so left out of the posted JSON, when no project is configured. */
  function UpdateRequest(env: Env, f: PatchFields): (r: Json)
    ensures r.Obj? && r.members.Keys == {"table_id", "row_id", "project_id", "data"}
    ensures r.members["row_id"] == f.rowId
    ensures r.members["table_id"] == Str(AppointmentTable(env))
    ensures Nullish(r.members["project_id"]) <==> env.projectId == ""
    ensures r.members["data"] == Obj(UpdateData(f))
  {
    Obj(map[
      "table_id" := Str(AppointmentTable(env)),
      "row_id" := f.rowId,
      "project_id" := if env.projectId != "" then Str(env.projectId) else Undefined,
      "data" := Obj(UpdateData(f))
    ])
  }

  /** The handler's reply once the update has been posted. */
  function PatchReply(reply: Reply): (r: Response)
    ensures reply.Reply? && !Ok(reply) ==> r == ErrorReply(reply.status, "Failed to update appointment status")
    ensures r.status == 200 <==> reply.Reply? && Ok(reply) && reply.body.Normal?
    ensures r.status == 200 ==>
      && r.body.Obj?
      && r.body.members.Keys == {"success", "message", "data"}
      && r.body.members["success"] == Bool(true)
      && r.body.members["data"] == reply.body.value
  {
    match reply
    case NetworkFailure => ErrorReply(500, InternalErrorMessage)
    case Reply(status, body) =>
      if !Ok(reply) then ErrorReply(status, "Failed to update appointment status")
      else
        match body
        case Throw => ErrorReply(500, InternalErrorMessage)
        case Normal(data) => Response(200, Obj(map[
          "success" := Bool(true),
          "message" := Str("Appointment status updated successfully"),
          "data" := data
        ]))
  }

  /** PATCH: validate the body, then the credential guard, then post the
      update; `reply` is what the update call returns. */
  function Patch(req: Json, env: Env, reply: Reply): (x: Exchange)
    ensures Nullish(req) ==> x == Exchange([], ErrorReply(500, InternalErrorMessage))
    ensures !Nullish(req) && !Truthy(Member(req, "rowId")) ==>
      x == Exchange([], ErrorReply(400, RequiredMessage))
    ensures !Nullish(req) && !Truthy(Member(req, "status")) && !IsString(Member(req, "doctorNotes")) ==>
      x == Exchange([], ErrorReply(400, RequiredMessage))
    ensures !Nullish(req) && Truthy(Member(req, "rowId")) && Truthy(Member(req, "status"))
            && !IsValidStatus(Member(req, "status")) ==>
      x == Exchange([], ErrorReply(400, InvalidStatusMessage))
    ensures !Nullish(req) && PatchError(PatchFieldsOf(req)).None? && !KeyConfigured(env.apiKey) ==>
      x == Exchange([], ErrorReply(500, KeyMissingMessage))
    ensures x.sent != [] <==>
      !Nullish(req) && PatchError(PatchFieldsOf(req)).None? && KeyConfigured(env.apiKey)
    ensures x.sent != [] ==> x.sent == [UpdateRequest(env, PatchFieldsOf(req))]
    ensures x.sent != [] ==> x.response == PatchReply(reply)
    ensures x.response.status == 200 ==> x.sent != []
  {
    if Nullish(req) then Exchange([], ErrorReply(500, InternalErrorMessage))
    else
      var f := PatchFieldsOf(req);
      match PatchError(f)
      case Some(message) => Exchange([], ErrorReply(400, message))
      case None =>
        if !KeyConfigured(env.apiKey) then Exchange([], ErrorReply(500, KeyMissingMessage))
        else Exchange([UpdateRequest(env, f)], PatchReply(reply))
  }

  // ------------------------------------------------------------- lemmas

  /** `getVal` undoes the table service's cell wrapping. */
  lemma GetValUnwrapsCell(x: Json)
    ensures GetVal(Cell(x)) == x
  {
  }

  /** `getVal` leaves every value that is not a cell untouched, and unwraps a
      doubly wrapped value by one level only. */
  lemma GetValOneLevel(v: Json, x: Json)
    ensures !IsCell(v) ==> GetVal(v) == v
    ensures GetVal(Cell(Cell(x))) == Cell(x) != x
  {
  }

  /** A 400 depends on the body alone: it is returned whatever key is
      configured, even none or a placeholder, and nothing is posted. */
  lemma PatchValidationPrecedesKeyCheck(req: Json, env: Env, env': Env, reply: Reply, reply': Reply)
    requires !Nullish(req) && PatchError(PatchFieldsOf(req)).Some?
    ensures Patch(req, env, reply) == Patch(req, env', reply')
    ensures Patch(req, env, reply).response.status == 400
    ensures Patch(req, env, reply).sent == []
  {
  }

  /** An empty-string note with no status is accepted and writes only
      `doctor_notes`; a note that is not a string, with no status, is not. */
  lemma PatchNotesMustBeString(rowId: Json, notes: Json, env: Env, reply: Reply)
    requires Truthy(rowId) && KeyConfigured(env.apiKey)
    ensures var x := Patch(Obj(map["rowId" := rowId, "doctorNotes" := notes]), env, reply);
      && (IsString(notes) ==> x.sent != [] && x.sent[0].members["data"] == Obj(map["doctor_notes" := notes]))
      && (!IsString(notes) ==> x == Exchange([], ErrorReply(400, RequiredMessage)))
  {
    var req := Obj(map["rowId" := rowId, "doctorNotes" := notes]);
    var f := PatchFieldsOf(req);
    assert f == PatchFields(rowId, Undefined, notes);
    if IsString(notes) {
      assert UpdateData(f) == map["doctor_notes" := notes];
    }
  }

  /** A body is refused with 400 exactly when its row id is falsy, or it
      carries neither a truthy status nor string notes, or its truthy status
      is not one of the four. */
  lemma PatchRejectsExactly(req: Json, env: Env, reply: Reply)
    requires !Nullish(req)
    ensures var f := PatchFieldsOf(req);
      (Patch(req, env, reply).sent == [] && Patch(req, env, reply).response.status == 400) <==>
      (!Truthy(f.rowId) || (!Truthy(f.status) && !IsString(f.doctorNotes)) ||
       (Truthy(f.status) && !IsValidStatus(f.status)))
  {
  }

  /** Every column of a normalised row is its reference reading. */
  lemma NormaliseReadsSources(row: Json)
    requires !Nullish(row)
    ensures forall c | c in RowColumns :: NormaliseRow(row)[c] == GetVal(FirstPresent(row, Sources(c)))
  {
  }

  /** `FirstPresent` over one, two or three keys is a `??` chain. */
  lemma FirstPresentUnrolled(row: Json, keys: seq<string>)
    requires 1 <= |keys| <= 3
    ensures |keys| == 1 ==> FirstPresent(row, keys) == Member(row, keys[0])
    ensures |keys| == 2 ==> FirstPresent(row, keys) == Coalesce(Member(row, keys[0]), Member(row, keys[1]))
    ensures |keys| == 3 ==> (FirstPresent(row, keys) ==
      Coalesce(Coalesce(Member(row, keys[0]), Member(row, keys[1])), Member(row, keys[2])))
  {
    if |keys| >= 2 {
      assert keys[1..][0] == keys[1];
      if |keys| == 3 {
        assert keys[1..][1..] == [keys[2]];
      }
    }
  }

  /** The fallbacks of the three renamed columns are taken only when the
      preferred key is null or undefined: an empty string stays. */
  lemma NormaliseFallbacks(row: Json)
    requires !Nullish(row)
    ensures var r := NormaliseRow(row);
      && r["current_state"] == GetVal(
           if !Nullish(Member(row, "current_state")) then Member(row, "current_state")
           else Member(row, "appointment_status"))
      && r["confirmation_message"] == GetVal(
           if !Nullish(Member(row, "confirmation_message")) then Member(row, "confirmation_message")
           else Member(row, "confirmation_message_en"))
      && r["created_at"] == GetVal(
           if !Nullish(Member(row, "updated_at")) then Member(row, "updated_at")
           else if !Nullish(Member(row, "Updated at")) then Member(row, "Updated at")
           else Member(row, "created_at"))
      && (Member(row, "current_state") == Str("") ==> r["current_state"] == Str(""))
  {
  }

  /** A flattened row with no cell and no null in it flattens to itself. */
  lemma NormaliseIdempotent(row: Json)
    requires !Nullish(row)
    requires forall c | c in RowColumns :: !IsCell(Flatten(row, c)) && Flatten(row, c) != Null
    ensures NormaliseRow(Obj(NormaliseRow(row))) == NormaliseRow(row)
  {
    var r := NormaliseRow(row);
    forall c | c in RowColumns
      ensures Flatten(Obj(r), c) == r[c]
    {
      FlattenOfFlatRow(r, c);
    }
  }

  lemma FlattenOfFlatRow(r: Row, c: string)
    requires r.Keys == RowColumns && c in RowColumns
    requires !IsCell(r[c]) && r[c] != Null
    ensures Flatten(Obj(r), c) == r[c]
  {
    assert Member(Obj(r), c) == r[c];
    assert Member(Obj(r), "appointment_status") == Undefined;
    assert Member(Obj(r), "confirmation_message_en") == Undefined;
    assert Member(Obj(r), "updated_at") == Undefined;
    assert Member(Obj(r), "Updated at") == Undefined;
  }

  /** A raw row list is never null or undefined once the body has been read,
      so the `?? []` default is never taken. */
  lemma RawRowsNeverDefault(data: Json)
    requires RawRows(data).Normal?
    ensures RawRows(data).value == Or(Or(Member(data, "rows"), Member(data, "items")), data)
  {
  }

  /** A reply listing rows under `rows` is flattened row by row, in order. */
  lemma ListFlattensEveryRow(env: Env, alternate: Reply, rows: seq<Json>)
    requires KeyConfigured(env.apiKey)
    requires forall i | 0 <= i < |rows| :: !Nullish(rows[i])
    ensures var r := List(env, Reply(200, Normal(Obj(map["rows" := Arr(rows)]))), alternate);
      && r.status == 200
      && r.body.members["appointments"].Arr?
      && |r.body.members["appointments"].items| == |rows|
      && forall i | 0 <= i < |rows| :: r.body.members["appointments"].items[i] == Obj(NormaliseRow(rows[i]))
  {
    var data := Obj(map["rows" := Arr(rows)]);
    assert RawRows(data) == Normal(Arr(rows));
  }
}

=== FILE: admin_login.dfy ===
/** POST /api/admin/login: a username and password are checked against the
    admins listed in the credentials file; a match earns an opaque token and
    the admin's display fields. The file's `admins` list and the random token
    are parameters: reading the file and drawing the token are left out. */
module AdminLogin {
  import opened Js
  import opened Http

  /** One entry of the credentials file; a member the entry lacks is
      Undefined. */
  datatype Admin = Admin(username: Json, password: Json, name: Json, role: Json, id: Json)

  const RequiredMessage := "Username and password are required"
  const InvalidMessage := "Invalid username or password"

  /** The catch-path reply: a thrown exception anywhere in the handler. */
  const CatchReply := ErrorReply(500, "Internal server error")

  /** The callback of `admins.find`: both members strictly equal, that is,
      equal in value and type, and neither an array nor an object. */
  function Matches(a: Admin, username: Json, password: Json): (m: bool)
    ensures m <==>
      && a.username == username && a.password == password
      && !username.Arr? && !username.Obj? && !password.Arr? && !password.Obj?
  {
    StrictEqualsIsValueEquality(a.username, username);
    StrictEqualsIsValueEquality(a.password, password);
    StrictEquals(a.username, username) && StrictEquals(a.password, password)
  }

  /** `admins.find(...)` from position `from` on: the position of the first
      matching admin, or None when no admin from there on matches. */
  function FindFrom(admins: seq<Admin>, username: Json, password: Json, from: nat): (r: Option<nat>)
    requires from <= |admins|
    ensures r.Some? ==>
      && from <= r.value < |admins|
      && Matches(admins[r.value], username, password)
      && forall j | from <= j < r.value :: !Matches(admins[j], username, password)
    ensures r.None? ==> forall j | from <= j < |admins| :: !Matches(admins[j], username, password)
    decreases |admins| - from
  {
    if from == |admins| then None
    else if Matches(admins[from], username, password) then Some(from)
    else FindFrom(admins, username, password, from + 1)
  }

  function Find(admins: seq<Admin>, username: Json, password: Json): Option<nat> {
    FindFrom(admins, username, password, 0)
  }

  /** POST: check both fields are present, then look the pair up. */
  function Login(req: Json, admins: seq<Admin>, token: string): (r: Response)
    ensures Nullish(req) ==> r == CatchReply
    ensures !Nullish(req) && (!Truthy(Member(req, "username")) || !Truthy(Member(req, "password"))) ==>
      r == ErrorReply(400, RequiredMessage)
    ensures r.status == 200 <==>
      && !Nullish(req)
      && Truthy(Member(req, "username")) && Truthy(Member(req, "password"))
      && exists i | 0 <= i < |admins| :: Matches(admins[i], Member(req, "username"), Member(req, "password"))
    ensures r.status == 401 ==> r == ErrorReply(401, InvalidMessage)
    ensures r.status == 200 ==>
      && r.body.Obj?
      && r.body.members.Keys == {"success", "token", "name", "role", "id"}
      && r.body.members["success"] == Bool(true)
      && r.body.members["token"] == Str(token)
      && exists i | 0 <= i < |admins| ::
           && Matches(admins[i], Member(req, "username"), Member(req, "password"))
           && (forall j | 0 <= j < i :: !Matches(admins[j], Member(req, "username"), Member(req, "password")))
           && r.body.members["name"] == admins[i].name
           && r.body.members["role"] == admins[i].role
           && r.body.members["id"] == admins[i].id
  {
    if Nullish(req) then CatchReply
    else
      var username := Member(req, "username");
      var password := Member(req, "password");
      if !Truthy(username) || !Truthy(password) then ErrorReply(400, RequiredMessage)
      else
        match Find(admins, username, password)
        case None => ErrorReply(401, InvalidMessage)
        case Some(i) => Response(200, Obj(map[
          "success" := Bool(true),
          "token" := Str(token),
          "name" := admins[i].name,
          "role" := admins[i].role,
          "id" := admins[i].id
        ]))
  }

  /** Credentials that are missing or blank are refused without looking at
      the admin list: the reply is the same whatever the list holds. */
  lemma LoginRejectsBlankWithoutLookup(req: Json, admins: seq<Admin>, admins': seq<Admin>, token: string, token': string)
    requires !Nullish(req)
    requires !Truthy(Member(req, "username")) || !Truthy(Member(req, "password"))
    ensures Login(req, admins, token) == Login(req, admins', token')
    ensures Login(req, admins, token).status == 400
  {
  }

  /** Every login with present credentials ends in 200 or 401, never 400. */
  lemma LoginOutcomes(req: Json, admins: seq<Admin>, token: string)
    requires !Nullish(req) && Truthy(Member(req, "username")) && Truthy(Member(req, "password"))
    ensures Login(req, admins, token).status in {200, 401}
  {
  }

  /** When two admins share a username and password, the earlier one's
      name, role and id are returned. */
  lemma {:induction false} FirstMatchWins(admins: seq<Admin>, username: Json, password: Json, i: nat, k: nat)
    requires i < k < |admins|
    requires Matches(admins[i], username, password) && Matches(admins[k], username, password)
    ensures Find(admins, username, password).Some?
    ensures Find(admins, username, password).value <= i
  {
  }
}

=== FILE: booking.dfy ===
/** POST /api/appointment: a patient's booking request is checked, added as
    a row of the appointment table, and answered with the confirmation text
    the table service generated, in the language the patient asked for. */
module Booking {
  import opened Js
  import opened Http
  import GenTables

  /** The request members a booking must carry, and the table columns they
      are written to, position by position. `language` is not among them. */
  const RequiredFields: seq<string> := ["patientName", "phoneNumber", "preferredDate", "preferredTime", "reason"]
  const Columns: seq<string> := ["patient_name", "phone_number", "preferred_date", "preferred_time", "reason"]

  const EnglishColumn := "confirmation_message_en"
  const MalayColumn := "confirmation_message_ms"

  const MissingFieldMessage := "All fields are required"
  const NoConfirmationMessage := "Failed to generate confirmation"

  /** The catch-path reply: a thrown exception anywhere in the handler. */
  const CatchReply := ErrorReply(500, "Failed to book appointment")

  /** Some required member is falsy. */
  predicate MissingField(req: Json) {
    exists i | 0 <= i < |RequiredFields| :: !Truthy(Member(req, RequiredFields[i]))
  }

  /** The quantified reading of the handler's five-way `||` chain. */
  lemma MissingFieldIff(req: Json)
    ensures MissingField(req) <==>
      (!Truthy(Member(req, "patientName")) || !Truthy(Member(req, "phoneNumber"))
       || !Truthy(Member(req, "preferredDate")) || !Truthy(Member(req, "preferredTime"))
       || !Truthy(Member(req, "reason")))
  {
    if !Truthy(Member(req, "patientName")) { assert !Truthy(Member(req, RequiredFields[0])); }
    if !Truthy(Member(req, "phoneNumber")) { assert !Truthy(Member(req, RequiredFields[1])); }
    if !Truthy(Member(req, "preferredDate")) { assert !Truthy(Member(req, RequiredFields[2])); }
    if !Truthy(Member(req, "preferredTime")) { assert !Truthy(Member(req, RequiredFields[3])); }
    if !Truthy(Member(req, "reason")) { assert !Truthy(Member(req, RequiredFields[4])); }
  }

  /** The row added to the table: each required member copied unchanged to
      its column, and nothing else. */
  function BookingRow(req: Json): (row: map<string, Json>)
    ensures row.Keys == set c | c in Columns
    ensures forall i | 0 <= i < |Columns| :: row[Columns[i]] == Member(req, RequiredFields[i])
  {
    map[
      "patient_name" := Member(req, "patientName"),
      "phone_number" := Member(req, "phoneNumber"),
      "preferred_date" := Member(req, "preferredDate"),
      "preferred_time" := Member(req, "preferredTime"),
      "reason" := Member(req, "reason")
    ]
  }

  /** The body posted to the add-row endpoint. */
  function AddRowRequest(env: Env, req: Json): Json {
    Obj(map[
      "table_id" := Str(AppointmentTable(env)),
      "data" := Arr([Obj(BookingRow(req))]),
      "stream" := Bool(false)
    ])
  }

  /** `language === "ms" ? confirmationMs : confirmationEn` */
  function Choose(language: Json, en: Json, ms: Json): (r: Json)
    ensures language == Str("ms") ==> r == ms
    ensures language != Str("ms") ==> r == en
  {
    if StrictEquals(language, Str("ms")) then ms else en
  }

  /** The handler's reply once the row has been posted; `reply` is what the
      add-row call returned. A reply that is not ok is thrown and so lands in
      the catch path. */
  function BookReply(language: Json, reply: Reply): (r: Response)
    ensures r.status == 200 ==>
      && r.body.Obj?
      && r.body.members.Keys == {"success", "confirmation", "confirmationEn", "confirmationMs"}
      && r.body.members["success"] == Bool(true)
      && Truthy(r.body.members["confirmationEn"])
      && Truthy(r.body.members["confirmationMs"])
      && (StrictEquals(language, Str("ms")) ==> r.body.members["confirmation"] == r.body.members["confirmationMs"])
      && (!StrictEquals(language, Str("ms")) ==> r.body.members["confirmation"] == r.body.members["confirmationEn"])
    ensures r.status == 200 || r == CatchReply || r == ErrorReply(500, NoConfirmationMessage)
    ensures reply.NetworkFailure? || !Ok(reply) || reply.body.Throw? || Nullish(reply.body.value) ==>
      r == CatchReply
    ensures reply.Reply? && Ok(reply) && reply.body.Normal? && !Nullish(reply.body.value) ==>
      var en := GenTables.ContentOf(reply.body.value, EnglishColumn);
      var ms := GenTables.ContentOf(reply.body.value, MalayColumn);
      && (r.status == 200 <==> Truthy(en) && Truthy(ms))
      && (!(Truthy(en) && Truthy(ms)) ==> r == ErrorReply(500, NoConfirmationMessage))
      && (r.status == 200 ==>
            r.body.members["confirmationEn"] == en && r.body.members["confirmationMs"] == ms)
  {
    match reply
    case NetworkFailure => CatchReply
    case Reply(_, body) =>
      if !Ok(reply) then CatchReply
      else
        match body
        case Throw => CatchReply
        case Normal(data) =>
          match (GenTables.Content(data, EnglishColumn), GenTables.Content(data, MalayColumn))
          case (Normal(en), Normal(ms)) =>
            if !Truthy(en) || !Truthy(ms) then ErrorReply(500, NoConfirmationMessage)
            else Response(200, Obj(map[
              "success" := Bool(true),
              "confirmation" := Choose(language, en, ms),
              "confirmationEn" := en,
              "confirmationMs" := ms
            ]))
          case _ => CatchReply
  }

  /** POST: destructure the body, check the five fields, then the credential
      guard, then add the row. */
  function Book(req: Json, env: Env, reply: Reply): (x: Exchange)
    ensures Nullish(req) ==> x == Exchange([], CatchReply)
    ensures !Nullish(req) && MissingField(req) ==> x == Exchange([], ErrorReply(400, MissingFieldMessage))
    ensures !Nullish(req) && !MissingField(req) && !KeyConfigured(env.apiKey) ==>
      x == Exchange([], ErrorReply(500, KeyMissingMessage))
    ensures x.sent != [] <==> !Nullish(req) && !MissingField(req) && KeyConfigured(env.apiKey)
    ensures x.sent != [] ==> x.sent == [AddRowRequest(env, req)]
    ensures x.response.status == 200 ==> x.sent != []
  {
    if Nullish(req) then Exchange([], CatchReply)
    else
      var m := k => Member(req, k);
      MissingFieldIff(req);
      if !Truthy(m("patientName")) || !Truthy(m("phoneNumber")) || !Truthy(m("preferredDate"))
         || !Truthy(m("preferredTime")) || !Truthy(m("reason")) then
        Exchange([], ErrorReply(400, MissingFieldMessage))
      else if !KeyConfigured(env.apiKey) then Exchange([], ErrorReply(500, KeyMissingMessage))
      else Exchange([AddRowRequest(env, req)], BookReply(m("language"), reply))
  }

  /** A booking missing a field is refused with 400 whatever the key and the
      table service would say: the field check comes first. */
  lemma BookValidationPrecedesKeyCheck(req: Json, env: Env, env': Env, reply: Reply, reply': Reply)
    requires !Nullish(req) && MissingField(req)
    ensures Book(req, env, reply) == Book(req, env', reply')
    ensures Book(req, env, reply).response.status == 400
  {
  }

  /** When the table service generates both confirmations, the booking
      succeeds and answers in Malay exactly for `language === "ms"`, in
      English for every other language value, missing ones included. */
  lemma BookAnswersInRequestedLanguage(req: Json, env: Env, en: string, ms: string)
    requires !Nullish(req) && !MissingField(req) && KeyConfigured(env.apiKey)
    requires en != "" && ms != ""
    ensures var x := Book(req, env, Reply(200, Normal(GenTables.GeneratedRow(map[EnglishColumn := en, MalayColumn := ms]))));
      && x.response.status == 200
      && x.response.body.members["confirmationEn"] == Str(en)
      && x.response.body.members["confirmationMs"] == Str(ms)
      && x.response.body.members["confirmation"] ==
           (if Member(req, "language") == Str("ms") then Str(ms) else Str(en))
  {
    var reply := Reply(200, Normal(GenTables.GeneratedRow(map[EnglishColumn := en, MalayColumn := ms])));
    BookPostsThenReplies(req, env, reply);
    ConfirmationsOfGeneratedRow(Member(req, "language"), en, ms);
  }

  /** A valid booking posts its row and answers with what the add-row reply
      yields for the requested language. */
  lemma BookPostsThenReplies(req: Json, env: Env, reply: Reply)
    requires !Nullish(req) && !MissingField(req) && KeyConfigured(env.apiKey)
    ensures Book(req, env, reply) == Exchange([AddRowRequest(env, req)], BookReply(Member(req, "language"), reply))
  {
    MissingFieldIff(req);
  }

  /** The reply to a generated row holding both confirmations. */
  lemma ConfirmationsOfGeneratedRow(language: Json, en: string, ms: string)
    requires en != "" && ms != ""
    ensures var r := BookReply(language, Reply(200, Normal(GenTables.GeneratedRow(map[EnglishColumn := en, MalayColumn := ms]))));
      && r.status == 200
      && r.body.members["confirmationEn"] == Str(en)
      && r.body.members["confirmationMs"] == Str(ms)
      && r.body.members["confirmation"] == (if language == Str("ms") then Str(ms) else Str(en))
  {
    var columns := map[EnglishColumn := en, MalayColumn := ms];
    GenTables.ContentOfGeneratedRow(columns, EnglishColumn);
    GenTables.ContentOfGeneratedRow(columns, MalayColumn);
    ConfirmationsOf(language, GenTables.GeneratedRow(columns), en, ms);
  }

  /** The reply to any body whose two confirmation contents are non-empty
      strings. */
  lemma ConfirmationsOf(language: Json, data: Json, en: string, ms: string)
    requires en != "" && ms != ""
    requires GenTables.Content(data, EnglishColumn) == Normal(Str(en))
    requires GenTables.Content(data, MalayColumn) == Normal(Str(ms))
    ensures var r := BookReply(language, Reply(200, Normal(data)));
      && r.status == 200
      && r.body.members["confirmationEn"] == Str(en)
      && r.body.members["confirmationMs"] == Str(ms)
      && r.body.members["confirmation"] == (if language == Str("ms") then Str(ms) else Str(en))
  {
  }

  /** When the table service leaves either confirmation out, the booking
      fails with 500 even though the row was posted. */
  lemma BookFailsWithoutBothConfirmations(req: Json, env: Env, columns: map<string, string>)
    requires !Nullish(req) && !MissingField(req) && KeyConfigured(env.apiKey)
    requires EnglishColumn !in columns || MalayColumn !in columns
    ensures var x := Book(req, env, Reply(200, Normal(GenTables.GeneratedRow(columns))));
      x.sent != [] && x.response == ErrorReply(500, NoConfirmationMessage)
  {
    MissingFieldIff(req);
    if EnglishColumn !in columns {
      GenTables.ContentOfMissingColumn(columns, EnglishColumn);
    } else {
      GenTables.ContentOfMissingColumn(columns, MalayColumn);
    }
  }

  /** Any ok reply whose English or Malay content is falsy (missing, empty,
      `0`, `false`, `null`) makes the booking fail with 500 after the row
      was posted. */
  lemma BookFailsOnFalsyConfirmation(req: Json, env: Env, status: nat, data: Json)
    requires !Nullish(req) && !MissingField(req) && KeyConfigured(env.apiKey)
    requires 200 <= status <= 299 && !Nullish(data)
    requires !Truthy(GenTables.ContentOf(data, EnglishColumn)) || !Truthy(GenTables.ContentOf(data, MalayColumn))
    ensures var x := Book(req, env, Reply(status, Normal(data)));
      x.sent == [AddRowRequest(env, req)] && x.response == ErrorReply(500, NoConfirmationMessage)
  {
    BookPostsThenReplies(req, env, Reply(status, Normal(data)));
  }
}

=== FILE: chat.dfy ===
/** POST /api/chat: a patient's message is first classified by the symptom
    classifier table (category, language, urgency), then sent to the chat
    table prefixed with an instruction to answer in the detected language;
    the generated answer is returned with the classification as metadata. */
module Chat {
  import opened Js
  import opened Http
  import GenTables

  const Unknown := Str("unknown")

  const EnglishOnly := "RESPOND IN ENGLISH ONLY."
  const MalayOnly := "RESPOND IN BAHASA MALAYSIA ONLY."

  const MissingMessage := "Message is required"
  const ChatKeyMissingMessage := "JamAI API key not configured. Please update .env.local with your actual API key."
  const NoContentMessage := "Failed to extract AI response"

  /** The catch-path reply: a thrown exception anywhere in the handler. */
  const CatchReply := ErrorReply(500, "Failed to process request")

  /** `ACTION_TABLE_SYMPTOM` and `CHAT_TABLE_ID` */
  function SymptomTable(env: Env): string {
    OrDefault(env.symptomTable, "symptom_classifier")
  }

  function ChatTable(env: Env): string {
    OrDefault(env.chatTable, "health_assistant")
  }

  /** The triage of one message. */
  datatype Classification = Classification(symptomCategory: Json, language: Json, urgency: Json)

  const Unclassified := Classification(Unknown, Unknown, Unknown)

  /** The body posted to the classifier's add-row endpoint. */
  function ClassifyRequest(env: Env, message: Json): Json {
    Obj(map[
      "table_id" := Str(SymptomTable(env)),
      "data" := Arr([Obj(map["user_message" := message])]),
      "stream" := Bool(false)
    ])
  }

  /** The classification read from the classifier's reply. A reply that is
      not ok leaves every field "unknown"; so does a generated column that is
      missing or falsy (`content || "unknown"`). A failed fetch, a body that
      is not JSON, or a JSON `null` body throws. */
  function Classify(reply: Reply): (c: Completion<Classification>)
    ensures c.Normal? ==>
      Truthy(c.value.symptomCategory) && Truthy(c.value.language) && Truthy(c.value.urgency)
    ensures reply.Reply? && !Ok(reply) ==> c == Normal(Unclassified)
    ensures c.Throw? <==>
      reply.NetworkFailure? || (Ok(reply) && (reply.body.Throw? || Nullish(reply.body.value)))
    ensures reply.Reply? && Ok(reply) && reply.body.Normal? && !Nullish(reply.body.value) ==>
      var data := reply.body.value;
      && c.Normal?
      && ReadsColumn(c.value.symptomCategory, data, "symptom_category")
      && ReadsColumn(c.value.language, data, "language_detected")
      && ReadsColumn(c.value.urgency, data, "urgency_level")
  {
    match reply
    case NetworkFailure => Throw
    case Reply(_, body) =>
      if !Ok(reply) then Normal(Unclassified)
      else
        match body
        case Throw => Throw
        case Normal(data) =>
          if Nullish(data) then Throw
          else Normal(Classification(
            Or(GenTables.ContentOf(data, "symptom_category"), Unknown),
            Or(GenTables.ContentOf(data, "language_detected"), Unknown),
            Or(GenTables.ContentOf(data, "urgency_level"), Unknown)))
  }

  /** A classification field read from generated column `column` of `data`:
      the generated text when it is truthy, "unknown" otherwise. */
  predicate ReadsColumn(field: Json, data: Json, column: string)
    requires !Nullish(data)
  {
    && (Truthy(GenTables.ContentOf(data, column)) ==> field == GenTables.ContentOf(data, column))
    && (!Truthy(GenTables.ContentOf(data, column)) ==> field == Unknown)
  }

  /** `languageInstruction`: compared with `===`, so only the exact strings
      "en" and "ms" select an instruction. */
  function LanguageInstruction(language: Json): (r: string)
    ensures r == EnglishOnly <==> language == Str("en")
    ensures r == MalayOnly <==> language == Str("ms")
    ensures r == "" <==> language != Str("en") && language != Str("ms")
  {
    if StrictEquals(language, Str("en")) then EnglishOnly
    else if StrictEquals(language, Str("ms")) then MalayOnly
    else ""
  }

  /** `${languageInstruction} ${message}`: throws exactly when converting the
      message to text throws. */
  function Prompt(instruction: string, message: Json): (p: Completion<string>)
    ensures p.Throw? <==> Text(message).Throw?
    ensures p.Normal? ==>
      && |p.value| == |instruction| + 1 + |Text(message).value|
      && p.value[..|instruction|] == instruction
      && p.value[|instruction|] == ' '
      && p.value[|instruction| + 1..] == Text(message).value
  {
    match Text(message)
    case Throw => Throw
    case Normal(text) => Normal(instruction + " " + text)
  }

  /** The prompt sent for a message once it is classified as `c`. */
  function ChatPrompt(c: Classification, message: Json): Completion<string> {
    Prompt(LanguageInstruction(c.language), message)
  }

  /** The body posted to the chat table's add-row endpoint. */
  function ChatRequest(env: Env, prompt: string): Json {
    Obj(map[
      "table_id" := Str(ChatTable(env)),
      "data" := Arr([Obj(map["User" := Str(prompt)])]),
      "stream" := Bool(false)
    ])
  }

  /** The handler's reply once the chat row has been posted. A reply that is
      not ok is thrown and so lands in the catch path. */
  function Respond(c: Classification, reply: Reply): (r: Response)
    ensures r.status == 200 ==>
      && r.body.Obj?
      && r.body.members.Keys == {"response", "metadata"}
      && Truthy(r.body.members["response"])
      && r.body.members["metadata"] == Obj(map[
           "symptomCategory" := c.symptomCategory,
           "language" := c.language,
           "urgency" := c.urgency])
    ensures r.status == 200 || r == CatchReply || r == ErrorReply(500, NoContentMessage)
    ensures reply.NetworkFailure? || !Ok(reply) || reply.body.Throw? || Nullish(reply.body.value) ==>
      r == CatchReply
    ensures reply.Reply? && Ok(reply) && reply.body.Normal? && !Nullish(reply.body.value) ==>
      var content := GenTables.ContentOf(reply.body.value, "AI");
      && (r.status == 200 <==> Truthy(content))
      && (!Truthy(content) ==> r == ErrorReply(500, NoContentMessage))
      && (r.status == 200 ==> r.body.members["response"] == content)
  {
    match reply
    case NetworkFailure => CatchReply
    case Reply(_, body) =>
      if !Ok(reply) then CatchReply
      else
        match body
        case Throw => CatchReply
        case Normal(data) =>
          match GenTables.Content(data, "AI")
          case Throw => CatchReply
          case Normal(content) =>
            if !Truthy(content) then ErrorReply(500, NoContentMessage)
            else Response(200, Obj(map[
              "response" := content,
              "metadata" := Obj(map[
                "symptomCategory" := c.symptomCategory,
                "language" := c.language,
                "urgency" := c.urgency])
            ]))
  }

  /** POST: check the message, then the credential guard, then classify,
      then chat. `classifyReply` and `chatReply` are what the two calls
      return. */
  function Post(req: Json, env: Env, classifyReply: Reply, chatReply: Reply): (x: Exchange)
    ensures Nullish(req) ==> x == Exchange([], CatchReply)
    ensures !Nullish(req) && !Truthy(Member(req, "message")) ==>
      x == Exchange([], ErrorReply(400, MissingMessage))
    ensures !Nullish(req) && Truthy(Member(req, "message")) && !KeyConfigured(env.apiKey) ==>
      x == Exchange([], ErrorReply(500, ChatKeyMissingMessage))
    ensures x.sent != [] <==>
      !Nullish(req) && Truthy(Member(req, "message")) && KeyConfigured(env.apiKey)
    ensures x.sent != [] ==> x.sent[0] == ClassifyRequest(env, Member(req, "message"))
    ensures |x.sent| <= 2
    ensures |x.sent| == 2 ==>
      && Classify(classifyReply).Normal?
      && ChatPrompt(Classify(classifyReply).value, Member(req, "message")).Normal?
      && x.sent[1] == ChatRequest(env, ChatPrompt(Classify(classifyReply).value, Member(req, "message")).value)
      && x.response == Respond(Classify(classifyReply).value, chatReply)
    ensures |x.sent| == 1 ==>
      && x.response == CatchReply
      && (Classify(classifyReply).Throw? ||
          ChatPrompt(Classify(classifyReply).value, Member(req, "message")).Throw?)
    ensures (x.sent != [] && Classify(classifyReply).Normal? &&
             ChatPrompt(Classify(classifyReply).value, Member(req, "message")).Normal?) ==> |x.sent| == 2
    ensures x.response.status == 200 ==> |x.sent| == 2
  {
    if Nullish(req) then Exchange([], CatchReply)
    else
      var message := Member(req, "message");
      if !Truthy(message) then Exchange([], ErrorReply(400, MissingMessage))
      else if !KeyConfigured(env.apiKey) then Exchange([], ErrorReply(500, ChatKeyMissingMessage))
      else
        var classifyRequest := ClassifyRequest(env, message);
        match Classify(classifyReply)
        case Throw => Exchange([classifyRequest], CatchReply)
        case Normal(c) =>
          match ChatPrompt(c, message)
          case Throw => Exchange([classifyRequest], CatchReply)
          case Normal(prompt) =>
            Exchange([classifyRequest, ChatRequest(env, prompt)], Respond(c, chatReply))
  }

  /** A string message is sent verbatim after the instruction; with no
      detected language the prompt starts with a lone space. */
  lemma PromptOfStringMessage(language: Json, message: string)
    ensures Prompt(LanguageInstruction(language), Str(message)) == Normal(
      if language == Str("en") then EnglishOnly + " " + message
      else if language == Str("ms") then MalayOnly + " " + message
      else " " + message)
  {
    var instruction := LanguageInstruction(language);
    assert Text(Str(message)) == Normal(message);
    assert Prompt(instruction, Str(message)) == Normal(instruction + " " + message);
    if instruction == "" {
      assert instruction + " " + message == " " + message;
    }
  }

  /** Reading the classifier's generated columns: each field is the column's
      text when it is non-empty, and "unknown" when the column is missing or
      its text is empty. */
  lemma ClassifyGeneratedRow(columns: map<string, string>)
    ensures var c := Classify(Reply(200, Normal(GenTables.GeneratedRow(columns))));
      && c.Normal?
      && c.value.symptomCategory == Generated(columns, "symptom_category")
      && c.value.language == Generated(columns, "language_detected")
      && c.value.urgency == Generated(columns, "urgency_level")
  {
    var data := GenTables.GeneratedRow(columns);
    assert !Nullish(data);
    assert Classify(Reply(200, Normal(data))) == Normal(Classification(
      Or(GenTables.ContentOf(data, "symptom_category"), Unknown),
      Or(GenTables.ContentOf(data, "language_detected"), Unknown),
      Or(GenTables.ContentOf(data, "urgency_level"), Unknown)));
    ReadGenerated(columns, "symptom_category");
    ReadGenerated(columns, "language_detected");
    ReadGenerated(columns, "urgency_level");
  }

  /** The classification field a generated column yields. */
  function Generated(columns: map<string, string>, column: string): Json {
    if column in columns && columns[column] != "" then Str(columns[column]) else Unknown
  }

  lemma ReadGenerated(columns: map<string, string>, column: string)
    ensures Or(GenTables.ContentOf(GenTables.GeneratedRow(columns), column), Unknown) ==
      Generated(columns, column)
  {
    if column in columns {
      GenTables.ContentOfGeneratedRow(columns, column);
    } else {
      GenTables.ContentOfMissingColumn(columns, column);
    }
  }

  /** When the classifier fails, the chat prompt carries no instruction and
      the reply's metadata says "unknown" three times; a message whose text
      conversion throws stops after the classifier call. */
  lemma UnclassifiedChat(req: Json, env: Env, status: nat, body: Completion<Json>, chatReply: Reply)
    requires !(200 <= status <= 299)
    requires !Nullish(req) && Truthy(Member(req, "message")) && KeyConfigured(env.apiKey)
    ensures var x := Post(req, env, Reply(status, body), chatReply);
      var text := Text(Member(req, "message"));
      && (text.Normal? ==>
            && |x.sent| == 2
            && x.sent[1] == ChatRequest(env, " " + text.value)
            && x.response == Respond(Unclassified, chatReply))
      && (text.Throw? ==> x == Exchange([ClassifyRequest(env, Member(req, "message"))], CatchReply))
  {
    assert LanguageInstruction(Unknown) == "";
    var text := Text(Member(req, "message"));
    if text.Normal? {
      assert Prompt("", Member(req, "message")) == Normal("" + " " + text.value);
      assert "" + " " + text.value == " " + text.value;
    }
  }

  /** A string message, once classified, always reaches the chat table, and
      the answer is the chat reply read with that classification. */
  lemma StringMessageReachesChat(req: Json, env: Env, classifyReply: Reply, chatReply: Reply)
    requires !Nullish(req) && IsString(Member(req, "message")) && Truthy(Member(req, "message"))
    requires KeyConfigured(env.apiKey) && Classify(classifyReply).Normal?
    ensures var x := Post(req, env, classifyReply, chatReply);
      && |x.sent| == 2
      && x.response == Respond(Classify(classifyReply).value, chatReply)
  {
  }

  /** A message object carrying its own `toString` member makes the prompt's
      template literal throw after the classifier was called: one request is
      sent and the catch reply is returned. */
  lemma ToStringMessageFailsAfterClassifying(req: Json, env: Env, classifyReply: Reply, chatReply: Reply)
    requires !Nullish(req) && Member(req, "message").Obj? && "toString" in Member(req, "message").members
    requires KeyConfigured(env.apiKey) && Classify(classifyReply).Normal?
    ensures Post(req, env, classifyReply, chatReply) ==
      Exchange([ClassifyRequest(env, Member(req, "message"))], CatchReply)
  {
  }
}

=== FILE: dashboard.dfy ===
/** The admin dashboard's computations over the flattened appointment rows:
    the four stat cards, the status and time a row is shown with, the status
    selector's options, and the PATCH bodies its two editors send. */
module Dashboard {
  import opened Js
  import opened Http
  import AdminAppointments

  type Row = AdminAppointments.Row

  /** `AppointmentStatus` */
  datatype Status = Booked | InProgress | Completed | Cancelled

  function Label(s: Status): string {
    match s
    case Booked => "Booked"
    case InProgress => "In Progress"
    case Completed => "Completed"
    case Cancelled => "Cancelled"
  }

  /** The `<option>` values of the status selector, in display order. */
  const StatusOptions: seq<string> := ["Booked", "In Progress", "Completed", "Cancelled"]

  /** `appointment.<key>` of a row received from the listing. */
  function Field(row: Row, key: string): Json {
    Member(Obj(row), key)
  }

  /** `a.current_state === state` */
  predicate HasState(row: Row, state: string) {
    StrictEquals(Field(row, "current_state"), Str(state))
  }

  /** `appointments.filter((a) => a.current_state === state).length` */
  function CountState(rows: seq<Row>, state: string): (n: nat)
    ensures n <= |rows|
    decreases |rows|
  {
    if rows == [] then 0
    else CountState(rows[..|rows| - 1], state) + (if HasState(rows[|rows| - 1], state) then 1 else 0)
  }

  /** The four stat cards: total, Booked, In Progress, Completed. */
  datatype Stats = Stats(total: nat, booked: nat, inProgress: nat, completed: nat)

  /** The stat cards for a list of rows. The three status cards count exact
      matches only, so together they never exceed the total; cancelled rows
      and rows with any other or no status are in the total alone. */
  method ComputeStats(rows: seq<Row>) returns (s: Stats)
    ensures s.total == |rows|
    ensures s.booked == CountState(rows, "Booked")
    ensures s.inProgress == CountState(rows, "In Progress")
    ensures s.completed == CountState(rows, "Completed")
    ensures s.booked + s.inProgress + s.completed <= s.total
  {
    var booked, inProgress, completed := 0, 0, 0;
    var i := 0;
    while i < |rows|
      invariant 0 <= i <= |rows|
      invariant booked == CountState(rows[..i], "Booked")
      invariant inProgress == CountState(rows[..i], "In Progress")
      invariant completed == CountState(rows[..i], "Completed")
      invariant booked + inProgress + completed <= i
    {
      assert rows[..i + 1][..i] == rows[..i];
      var state := Field(rows[i], "current_state");
      if StrictEquals(state, Str("Booked")) {
        booked := booked + 1;
      } else if StrictEquals(state, Str("In Progress")) {
        inProgress := inProgress + 1;
      } else if StrictEquals(state, Str("Completed")) {
        completed := completed + 1;
      }
      i := i + 1;
    }
    assert rows[..i] == rows;
    s := Stats(|rows|, booked, inProgress, completed);
  }

  /** The three status counts never add up to more than the rows counted:
      a row holds at most one of the three exact labels. */
  lemma {:induction false} StatusCountsWithinTotal(rows: seq<Row>)
    ensures CountState(rows, "Booked") + CountState(rows, "In Progress") + CountState(rows, "Completed") <= |rows|
    decreases |rows|
  {
    if rows != [] {
      StatusCountsWithinTotal(rows[..|rows| - 1]);
    }
  }

  /** `appointment.current_state || "Booked"`: the status a row is shown
      with, and the value its selector starts at. */
  function DisplayStatus(row: Row): (r: Json)
    ensures Truthy(r)
    ensures !Truthy(Field(row, "current_state")) ==> r == Str("Booked")
    ensures Truthy(Field(row, "current_state")) ==> r == Field(row, "current_state")
  {
    Or(Field(row, "current_state"), Str("Booked"))
  }

  /** `appointment.preferred_time || appointment.prefered_time` */
  function DisplayTime(row: Row): (r: Json)
    ensures Truthy(Field(row, "preferred_time")) ==> r == Field(row, "preferred_time")
    ensures !Truthy(Field(row, "preferred_time")) ==> r == Field(row, "prefered_time")
    ensures Truthy(r) <==> Truthy(Field(row, "preferred_time")) || Truthy(Field(row, "prefered_time"))
  {
    Or(Field(row, "preferred_time"), Field(row, "prefered_time"))
  }

  /** `{ rowId, status }`, sent when the selector changes. */
  function StatusUpdateBody(row: Row, s: Status): Json {
    Obj(map["rowId" := Field(row, "ID"), "status" := Str(Label(s))])
  }

  /** `{ rowId, doctorNotes }`, sent when the notes box loses focus. */
  function NotesUpdateBody(row: Row, notes: string): Json {
    Obj(map["rowId" := Field(row, "ID"), "doctorNotes" := Str(notes)])
  }

  /** The selector offers exactly the four statuses the PATCH handler
      accepts, one per `AppointmentStatus` value. */
  lemma OptionsAreTheValidStatuses()
    ensures StatusOptions == AdminAppointments.ValidStatuses
    ensures forall s: Status :: Label(s) in StatusOptions
    ensures forall o | o in StatusOptions :: exists s: Status :: Label(s) == o
    ensures forall o: string :: AdminAppointments.IsValidStatus(Str(o)) <==> o in StatusOptions
  {
    assert Label(Booked) == StatusOptions[0];
    assert Label(InProgress) == StatusOptions[1];
    assert Label(Completed) == StatusOptions[2];
    assert Label(Cancelled) == StatusOptions[3];
  }

  /** A status change from a row with an id passes the PATCH checks and
      writes `current_state` and nothing else. */
  lemma StatusUpdateWritesOnlyStatus(row: Row, s: Status, env: Env, reply: Reply)
    requires Truthy(Field(row, "ID")) && KeyConfigured(env.apiKey)
    ensures var x := AdminAppointments.Patch(StatusUpdateBody(row, s), env, reply);
      && |x.sent| == 1
      && x.sent[0].members["row_id"] == Field(row, "ID")
      && x.sent[0].members["data"] == Obj(map["current_state" := Str(Label(s))])
  {
    var body := StatusUpdateBody(row, s);
    var f := AdminAppointments.PatchFieldsOf(body);
    assert f == AdminAppointments.PatchFields(Field(row, "ID"), Str(Label(s)), Undefined);
    assert AdminAppointments.IsValidStatus(Str(Label(s))) by { OptionsAreTheValidStatuses(); }
    assert AdminAppointments.UpdateData(f) == map["current_state" := Str(Label(s))];
  }

  /** A notes edit sends only `rowId` and `doctorNotes`, so whatever the
      handler does with it, it never writes `current_state`; from a row with
      an id it writes exactly the notes, even empty ones. */
  lemma NotesUpdateNeverWritesStatus(row: Row, notes: string, env: Env, reply: Reply)
    ensures var x := AdminAppointments.Patch(NotesUpdateBody(row, notes), env, reply);
      && |x.sent| <= 1
      && (x.sent != [] ==> "current_state" !in x.sent[0].members["data"].members)
      && (Truthy(Field(row, "ID")) && KeyConfigured(env.apiKey) ==>
            x.sent != [] && x.sent[0].members["data"] == Obj(map["doctor_notes" := Str(notes)]))
  {
    var body := NotesUpdateBody(row, notes);
    var f := AdminAppointments.PatchFieldsOf(body);
    assert f == AdminAppointments.PatchFields(Field(row, "ID"), Undefined, Str(notes));
    assert AdminAppointments.UpdateData(f) == map["doctor_notes" := Str(notes)];
  }

  /** A row with no status is shown and selected as "Booked", yet the Booked
      card does not count it: the card compares with `===`, the display
      falls back with `||`. */
  lemma UnsetStatusShownButNotCounted(row: Row)
    requires !Truthy(Field(row, "current_state"))
    ensures DisplayStatus(row) == Str("Booked")
    ensures CountState([row], "Booked") == 0
  {
    assert [row][..0] == [];
  }
}

=== FILE: flows.dfy ===
/** Properties that span two handlers: what the booking handler writes, and
    what a status update writes, as the listing and the dashboard read it
    back. What the table service stores between the calls is its own
    business; these lemmas start from the stored row. */
module Flows {
  import opened Js
  import AdminAppointments
  import Booking
  import Dashboard

  /** A booking whose five fields are plain non-empty strings is listed with
      the same five values under the snake_case columns, in the same
      positions. The row has no status yet, so the dashboard shows it as
      "Booked" while the Booked card leaves it out. */
  lemma BookedRowListsBack(req: Json)
    requires !Nullish(req)
    requires forall i | 0 <= i < |Booking.RequiredFields| ::
      IsString(Member(req, Booking.RequiredFields[i])) && Truthy(Member(req, Booking.RequiredFields[i]))
    ensures var listed := AdminAppointments.NormaliseRow(Obj(Booking.BookingRow(req)));
      && (forall i | 0 <= i < |Booking.Columns| ::
            listed[Booking.Columns[i]] == Member(req, Booking.RequiredFields[i]))
      && listed["current_state"] == Undefined
      && Dashboard.DisplayStatus(listed) == Str("Booked")
      && Dashboard.CountState([listed], "Booked") == 0
  {
    var stored := Booking.BookingRow(req);
    var listed := AdminAppointments.NormaliseRow(Obj(stored));
    forall i | 0 <= i < |Booking.Columns|
      ensures listed[Booking.Columns[i]] == Member(req, Booking.RequiredFields[i])
    {
      BookedColumnListsBack(req, i);
    }
    BookedRowHasNoStatus(req);
    Dashboard.UnsetStatusShownButNotCounted(listed);
  }

  /** The booking handler writes no status column, so the listing finds
      neither `current_state` nor `appointment_status`. */
  lemma BookedRowHasNoStatus(req: Json)
    ensures AdminAppointments.NormaliseRow(Obj(Booking.BookingRow(req)))["current_state"] == Undefined
  {
    var stored := Booking.BookingRow(req);
    assert Member(Obj(stored), "current_state") == Undefined;
    assert Member(Obj(stored), "appointment_status") == Undefined;
    assert AdminAppointments.Flatten(Obj(stored), "current_state") == Undefined;
  }

  /** One column of a booked row, read back by the listing. */
  lemma BookedColumnListsBack(req: Json, i: nat)
    requires !Nullish(req) && i < |Booking.Columns|
    requires IsString(Member(req, Booking.RequiredFields[i]))
    ensures AdminAppointments.NormaliseRow(Obj(Booking.BookingRow(req)))[Booking.Columns[i]] ==
      Member(req, Booking.RequiredFields[i])
  {
    var stored := Booking.BookingRow(req);
    var c := Booking.Columns[i];
    var v := Member(req, Booking.RequiredFields[i]);
    assert stored[c] == v;
    assert Member(Obj(stored), c) == v;
    assert c in AdminAppointments.RowColumns by {
      if i == 0 { assert c == "patient_name"; }
      else if i == 1 { assert c == "phone_number"; }
      else if i == 2 { assert c == "preferred_date"; }
      else if i == 3 { assert c == "preferred_time"; }
      else { assert c == "reason"; }
    }
    assert c != "current_state" && c != "confirmation_message" && c != "created_at" && c != "ID" by {
      if i == 0 { assert c == "patient_name"; }
      else if i == 1 { assert c == "phone_number"; }
      else if i == 2 { assert c == "preferred_date"; }
      else if i == 3 { assert c == "preferred_time"; }
      else { assert c == "reason"; }
    }
    assert AdminAppointments.Flatten(Obj(stored), c) == AdminAppointments.GetVal(v);
  }

  /** A stored row whose `current_state` holds a status, plain or wrapped in
      a cell, is listed with that status, shown with it, and counted in its
      card (Cancelled has none). */
  lemma StoredStatusReachesDashboard(stored: map<string, Json>, s: Dashboard.Status, wrapped: bool)
    requires "current_state" in stored
    requires stored["current_state"] ==
      (if wrapped then AdminAppointments.Cell(Str(Dashboard.Label(s))) else Str(Dashboard.Label(s)))
    ensures var listed := AdminAppointments.NormaliseRow(Obj(stored));
      && listed["current_state"] == Str(Dashboard.Label(s))
      && Dashboard.DisplayStatus(listed) == Str(Dashboard.Label(s))
      && Dashboard.CountState([listed], Dashboard.Label(s)) == 1
  {
    var listed := AdminAppointments.NormaliseRow(Obj(stored));
    assert listed["current_state"] == AdminAppointments.Flatten(Obj(stored), "current_state");
    var one: seq<Dashboard.Row> := [listed];
    assert one[..0] == [];
  }

  /** A time stored under either spelling, plain or wrapped in a cell, is
      listed under the column of that spelling and shown on the dashboard:
      a non-empty `preferred_time` wins, and a row that only carries the
      misspelt `prefered_time` shows that one. */
  lemma StoredTimeReachesDashboard(stored: map<string, Json>, t: string, wrapped: bool)
    requires t != ""
    requires "preferred_time" in stored || "prefered_time" in stored
    requires "preferred_time" in stored ==>
      stored["preferred_time"] == (if wrapped then AdminAppointments.Cell(Str(t)) else Str(t))
    requires "preferred_time" !in stored ==>
      stored["prefered_time"] == (if wrapped then AdminAppointments.Cell(Str(t)) else Str(t))
    ensures var listed := AdminAppointments.NormaliseRow(Obj(stored));
      Dashboard.DisplayTime(listed) == Str(t)
  {
    var listed := AdminAppointments.NormaliseRow(Obj(stored));
    assert listed["preferred_time"] == AdminAppointments.Flatten(Obj(stored), "preferred_time");
    assert listed["prefered_time"] == AdminAppointments.Flatten(Obj(stored), "prefered_time");
    if "preferred_time" in stored {
      assert Dashboard.Field(listed, "preferred_time") == Str(t);
    } else {
      assert Dashboard.Field(listed, "preferred_time") == Undefined;
      assert Dashboard.Field(listed, "prefered_time") == Str(t);
    }
  }
}

=== FILE: http.dfy ===
/** The HTTP surface shared by the route handlers: the reply a handler
    returns, the reply an outbound `fetch` to the table service produces, and
    the environment the handlers read their settings from. */
module Http {
  import opened Js

  /** What `NextResponse.json(body, { status })` sends back; the status is
      200 when the handler gives none. */
  datatype Response = Response(status: nat, body: Json)

  /** `{ error: message }` with the given status. */
  function ErrorReply(status: nat, message: string): Response {
    Response(status, Obj(map["error" := Str(message)]))
  }

  /** The outcome of one outbound `fetch`: the network call itself failed
      (the promise rejects), or a reply arrived with a status code and a body
      that `json()` either parses or throws on. */
  datatype Reply = NetworkFailure | Reply(status: nat, body: Completion<Json>)

  /** `response.ok` */
  predicate Ok(r: Reply)
    requires r.Reply?
  {
    200 <= r.status <= 299
  }

  /** One handler invocation: the JSON bodies it posted to the table service,
      in order, and the reply it returned to the browser. */
  datatype Exchange = Exchange(sent: seq<Json>, response: Response)

  /** The environment variables the handlers read. An unset variable is the
      empty string: every read is `!x`, `x || default` or `x ? .. : ..`, for
      which unset and empty behave alike. */
  datatype Env = Env(
    apiKey: string,
    projectId: string,
    appointmentTable: string,
    chatTable: string,
    symptomTable: string)

  /** The credential guard `!JAMAI_API_KEY || JAMAI_API_KEY.includes("your_")`
      fails exactly when this is false: a key left at its placeholder value
      counts as missing. */
  function KeyConfigured(key: string): (ok: bool)
    ensures ok <==> key != "" && forall i :: !OccursAt(key, "your_", i)
  {
    IncludesAtOffset(key, "your_");
    key != "" && !Includes(key, "your_")
  }

  /** `process.env.X || fallback` */
  function OrDefault(value: string, fallback: string): string {
    if value != "" then value else fallback
  }

  const KeyMissingMessage := "JamAI API key not configured"

  /** `ACTION_TABLE_APPOINTMENT`, the table appointments are stored in. */
  function AppointmentTable(env: Env): string {
    OrDefault(env.appointmentTable, "appointment_bookings")
  }
}

/** The shape of a table-service reply to an "add row" call, and the path
    the handlers read a generated column's text from. */
module GenTables {
  import opened Js

  /** `?.[0]?.columns?.<column>?.choices?.[0]?.message?.content` */
  function ContentPath(column: string): seq<Step> {
    [Index(0), Key("columns"), Key(column), Key("choices"), Index(0), Key("message"), Key("content")]
  }

  /** `rows?.[0]?.columns?.<column>?.choices?.[0]?.message?.content` read
      from a reply body `data` that is not null. */
  function ContentOf(data: Json, column: string): Json
    requires !Nullish(data)
  {
    Follow(Member(data, "rows"), ContentPath(column))
  }

  /** `data.rows?.[0]?.columns?.<column>?.choices?.[0]?.message?.content`.
      The first link is a plain member read, so a body that is JSON `null`
      throws; every later link is optional. */
  function Content(data: Json, column: string): (r: Completion<Json>)
    ensures r.Throw? <==> Nullish(data)
    ensures r.Normal? ==> r.value == ContentOf(data, column)
  {
    match Get(data, "rows")
    case Throw => Throw
    case Normal(rows) => Normal(Follow(rows, ContentPath(column)))
  }

  /** A generated cell whose chat completion holds `text`. */
  function GeneratedCell(text: string): Json {
    Obj(map["choices" := Arr([Obj(map["message" := Obj(map["content" := Str(text)])])])])
  }

  /** A reply whose first row has the given generated columns. */
  function GeneratedRow(columns: map<string, string>): Json {
    var cells := map c | c in columns :: GeneratedCell(columns[c]);
    Obj(map["rows" := Arr([Obj(map["columns" := Obj(cells)])])])
  }

  /** Reading a generated column of a one-row reply gives back its text. */
  lemma {:induction false} ContentOfGeneratedRow(columns: map<string, string>, column: string)
    requires column in columns
    ensures Content(GeneratedRow(columns), column) == Normal(Str(columns[column]))
  {
    var path := ContentPath(column);
    var rows := Member(GeneratedRow(columns), "rows");
    var row := At(rows, 0);
    var cells := Member(row, "columns");
    var cell := Member(cells, column);
    assert cell == GeneratedCell(columns[column]);
    var choices := Member(cell, "choices");
    var choice := At(choices, 0);
    var message := Member(choice, "message");
    var content := Member(message, "content");
    assert content == Str(columns[column]);
    calc {
      Follow(rows, path);
      Follow(row, path[1..]);
      Follow(cells, path[2..]);
      Follow(cell, path[3..]);
      Follow(choices, path[4..]);
      Follow(choice, path[5..]);
      Follow(message, path[6..]);
      Follow(content, path[7..]);
    }
  }

  /** A column the reply does not carry reads as undefined, never a throw. */
  lemma {:induction false} ContentOfMissingColumn(columns: map<string, string>, column: string)
    requires column !in columns
    ensures Content(GeneratedRow(columns), column) == Normal(Undefined)
  {
    var path := ContentPath(column);
    var rows := Member(GeneratedRow(columns), "rows");
    var row := At(rows, 0);
    var cells := Member(row, "columns");
    assert Member(cells, column) == Undefined;
    calc {
      Follow(rows, path);
      Follow(row, path[1..]);
      Follow(cells, path[2..]);
      Follow(Undefined, path[3..]);
      { FollowFromNullish(Undefined, path[3..]); }
      Undefined;
    }
  }

}

=== FILE: js.dfy ===
/** JavaScript values as the route handlers see them after `JSON.parse`, and
    the few operators the handlers apply to them: truthiness (`!x`, `||`),
    nullish coalescing (`??`), member reads (`.k`, `?.k`, `?.[i]`), strict
    equality (`===`) and string conversion in template literals. */
module Js {

  /** The result of evaluating an expression: a value, or a thrown exception
      (a TypeError from reading a member of null, a rejected promise, a body
      that is not JSON). Every handler turns a throw into its catch reply. */
  datatype Completion<+T> = Normal(value: T) | Throw

  /** A possibly absent result, as `Array.prototype.find` gives. */
  datatype Option<+T> = None | Some(value: T)

  /** A JSON value, plus `undefined` for a member that is not there. Numbers
      are integers here. An object member whose value is Undefined reads the
      same as a missing member and is dropped when the value is serialised. */
  datatype Json =
    | Undefined
    | Null
    | Bool(b: bool)
    | Num(n: int)
    | Str(s: string)
    | Arr(items: seq<Json>)
    | Obj(members: map<string, Json>)

  /** `!!v`: false, 0, "", null and undefined are falsy; every array and
      every object, even an empty one, is truthy. */
  predicate Truthy(v: Json) {
    match v
    case Undefined => false
    case Null => false
    case Bool(b) => b
    case Num(n) => n != 0
    case Str(s) => s != ""
    case Arr(_) => true
    case Obj(_) => true
  }

  /** The values `??` and `?.` treat as absent. */
  predicate Nullish(v: Json) {
    v.Undefined? || v.Null?
  }

  /** `a || b` */
  function Or(a: Json, b: Json): Json {
    if Truthy(a) then a else b
  }

  /** `a ?? b` */
  function Coalesce(a: Json, b: Json): Json {
    if Nullish(a) then b else a
  }

  /** `typeof v === "string"` */
  predicate IsString(v: Json) {
    v.Str?
  }

  /** Reading member `key` of a value that is not null or undefined. Only
      the members of parsed objects are modelled: none of the keys the
      handlers read names a built-in member of strings or arrays. */
  function Member(v: Json, key: string): Json {
    match v
    case Obj(m) => if key in m then m[key] else Undefined
    case _ => Undefined
  }

  /** `v.key`: throws a TypeError when `v` is null or undefined. */
  function Get(v: Json, key: string): Completion<Json> {
    if Nullish(v) then Throw else Normal(Member(v, key))
  }

  /** `v?.[i]` */
  function At(v: Json, i: nat): Json {
    match v
    case Arr(items) => if i < |items| then items[i] else Undefined
    case Str(s) => if i < |s| then Str([s[i]]) else Undefined
    case Obj(_) => Member(v, NatToDecimal(i))
    case _ => Undefined
  }

  /** One link of an optional chain: `?.name` or `?.[index]`. */
  datatype Step = Key(name: string) | Index(index: nat)

  /** `v?.s0?.s1...`: an optional chain never throws; once a link yields
      null or undefined the whole chain is undefined. */
  function Follow(v: Json, path: seq<Step>): Json
    decreases |path|
  {
    if path == [] then v
    else
      var next := match path[0]
        case Key(k) => Member(v, k)
        case Index(i) => At(v, i);
      Follow(next, path[1..])
  }

  /** `a === b`. Two arrays or objects are never strictly equal here: every
      value the handlers compare comes from a separate parse, so no two of
      them are the same reference. */
  predicate StrictEquals(a: Json, b: Json) {
    match (a, b)
    case (Undefined, Undefined) => true
    case (Null, Null) => true
    case (Bool(x), Bool(y)) => x == y
    case (Num(x), Num(y)) => x == y
    case (Str(x), Str(y)) => x == y
    case _ => false
  }

  /** `s.includes(t)` */
  predicate Includes(s: string, t: string)
    decreases |s|
  {
    if |s| < |t| then false
    else s[..|t|] == t || (s != [] && Includes(s[1..], t))
  }

  function DigitChar(d: nat): char
    requires d < 10
  {
    "0123456789"[d]
  }

  function NatToDecimal(n: nat): string
    decreases n
  {
    if n < 10 then [DigitChar(n)] else NatToDecimal(n / 10) + [DigitChar(n % 10)]
  }

  function IntToDecimal(i: int): string {
    if i < 0 then "-" + NatToDecimal(-i) else NatToDecimal(i)
  }

  /** A character of a decimal numeral. */
  predicate IsDigit(c: char) {
    '0' <= c <= '9'
  }

  predicate AllDigits(s: string) {
    forall i | 0 <= i < |s| :: IsDigit(s[i])
  }

  /** The number a string of digits denotes, read most significant first. */
  function DecimalValue(s: string): nat
    requires AllDigits(s)
    decreases |s|
  {
    if s == [] then 0
    else DecimalValue(s[..|s| - 1]) * 10 + (s[|s| - 1] as int - '0' as int)
  }

  /** The integer an optionally signed numeral denotes. */
  function SignedDecimalValue(s: string): int
    requires s != [] && (s[0] == '-' ==> AllDigits(s[1..])) && (s[0] != '-' ==> AllDigits(s))
  {
    if s[0] == '-' then 0 - DecimalValue(s[1..]) else DecimalValue(s)
  }

  /** The numeral of `n` is a non-empty string of digits without a leading
      zero that reads back as `n`. */
  lemma {:induction false} NatToDecimalReadsBack(n: nat)
    ensures var d := NatToDecimal(n);
      && d != [] && AllDigits(d)
      && (n != 0 ==> d[0] != '0')
      && DecimalValue(d) == n
    decreases n
  {
    var d := NatToDecimal(n);
    if n < 10 {
      assert d == [DigitChar(n)];
      assert DecimalValue(d) == DecimalValue([]) * 10 + (d[0] as int - '0' as int);
    } else {
      NatToDecimalReadsBack(n / 10);
      var h := NatToDecimal(n / 10);
      assert d == h + [DigitChar(n % 10)];
      assert d[..|d| - 1] == h;
      assert d[0] == h[0];
    }
  }

  /** The text of an integer is `-` before the numeral of its magnitude for
      a negative number, the bare numeral otherwise; it reads back as the
      integer. */
  lemma IntToDecimalReadsBack(i: int)
    ensures var d := IntToDecimal(i);
      && d != []
      && (d[0] == '-' <==> i < 0)
      && (d[0] == '-' ==> AllDigits(d[1..]))
      && (d[0] != '-' ==> AllDigits(d))
      && SignedDecimalValue(d) == i
  {
    if i < 0 {
      NatToDecimalReadsBack(-i);
      assert IntToDecimal(i)[1..] == NatToDecimal(-i);
    } else {
      NatToDecimalReadsBack(i);
    }
  }

  function Join(parts: seq<string>, separator: string): string
    decreases |parts|
  {
    if parts == [] then ""
    else if |parts| == 1 then parts[0]
    else parts[0] + separator + Join(parts[1..], separator)
  }

  /** `String(v)`, the conversion a template literal `${v}` applies. Inside
      an array, null and undefined elements become empty strings and the
      rest are joined with commas. A parsed object with its own `toString`
      member throws a TypeError: that member is not callable, and the
      inherited `valueOf` yields the object itself, not a primitive. The same
      throw propagates out of an array holding such an object. */
  function Text(v: Json): (r: Completion<string>)
    ensures v.Str? ==> r == Normal(v.s)
    ensures v.Obj? ==> (r.Throw? <==> "toString" in v.members)
    ensures !v.Arr? && !v.Obj? ==> r.Normal?
    ensures v.Arr? ==> (r.Throw? <==> exists i | 0 <= i < |v.items| :: Text(v.items[i]).Throw?)
    ensures v == Undefined ==> r == Normal("undefined")
    ensures v == Null ==> r == Normal("null")
    ensures v.Bool? ==> r == Normal(if v.b then "true" else "false")
    ensures v.Num? ==> r == Normal(IntToDecimal(v.n))
    ensures v.Obj? && r.Normal? ==> r.value == "[object Object]"
    ensures v.Arr? && r.Normal? ==>
      r.value == Join(seq(|v.items|, i requires 0 <= i < |v.items| =>
                        if Nullish(v.items[i]) || Text(v.items[i]).Throw? then "" else Text(v.items[i]).value), ",")
  {
    match v
    case Undefined => Normal("undefined")
    case Null => Normal("null")
    case Bool(b) => Normal(if b then "true" else "false")
    case Num(n) => Normal(IntToDecimal(n))
    case Str(s) => Normal(s)
    case Arr(items) =>
      var parts := seq(|items|, i requires 0 <= i < |items| =>
                     if Nullish(items[i]) then Normal("") else Text(items[i]));
      assert forall i | 0 <= i < |items| :: parts[i].Throw? <==> Text(items[i]).Throw?;
      if exists i | 0 <= i < |parts| :: parts[i].Throw? then Throw
      else
        var texts := seq(|parts|, i requires 0 <= i < |parts| => parts[i].value);
        assert texts == seq(|items|, i requires 0 <= i < |items| =>
                              if Nullish(items[i]) || Text(items[i]).Throw? then "" else Text(items[i]).value);
        Normal(Join(texts, ","))
    case Obj(m) => if "toString" in m then Throw else Normal("[object Object]")
  }

  /** `||` and `??` pick different operands exactly when the left operand is
      falsy without being null or undefined (false, 0, "") and the two
      operands differ. */
  lemma OrDiffersFromCoalesce(a: Json, b: Json)
    ensures Or(a, b) != Coalesce(a, b) <==> (!Truthy(a) && !Nullish(a) && a != b)
  {
  }

  /** An empty string survives `??` but falls through `||`. */
  lemma EmptyStringOrCoalesce(b: Json)
    requires b != Str("")
    ensures Coalesce(Str(""), b) == Str("")
    ensures Or(Str(""), b) == b
  {
  }

  /** Once a link of an optional chain is null or undefined, the chain is
      undefined whatever follows. */
  lemma {:induction false} FollowFromNullish(v: Json, path: seq<Step>)
    requires Nullish(v)
    ensures Follow(v, path) == (if path == [] then v else Undefined)
    decreases |path|
  {
    if path != [] {
      FollowFromNullish(Undefined, path[1..]);
    }
  }

  /** `===` is value equality on everything but arrays and objects, which
      are never strictly equal: a number never equals a string of the same
      digits, nor `null` `undefined`. */
  lemma StrictEqualsIsValueEquality(a: Json, b: Json)
    ensures StrictEquals(a, b) <==> a == b && !a.Arr? && !a.Obj?
  {
  }

  /** `t` occurs in `s` starting at offset `i`. */
  predicate OccursAt(s: string, t: string, i: int) {
    0 <= i && i + |t| <= |s| && s[i..i + |t|] == t
  }

  /** `s.includes(t)` holds exactly when `t` occurs at some offset of `s`. */
  lemma {:induction false} IncludesAtOffset(s: string, t: string)
    ensures Includes(s, t) <==> exists i :: OccursAt(s, t, i)
    decreases |s|
  {
    if |s| < |t| {
    } else if s[..|t|] == t {
      assert OccursAt(s, t, 0);
    } else {
      IncludesAtOffset(s[1..], t);
      if Includes(s[1..], t) {
        var i :| OccursAt(s[1..], t, i);
        assert s[1..][i..i + |t|] == s[i + 1..i + 1 + |t|];
        assert OccursAt(s, t, i + 1);
      }
      if exists i :: OccursAt(s, t, i) {
        var i :| OccursAt(s, t, i);
        assert i != 0;
        assert s[1..][i - 1..i - 1 + |t|] == s[i..i + |t|];
        assert OccursAt(s[1..], t, i - 1);
      }
    }
  }
}
